=== FILE: README.md ===
# gif-service countdown core, in Dafny

A model of the request logic and the frame schedule of gif-service, a Go
service that renders countdown timers as animated GIFs for email. The model
covers:

- the countdown text (`formatDuration`), the sixty-frame schedule of
  `gif.Generate` and its 32-colour palette (`gif/generator.go`);
- the two hex-colour parsers: the strict one of the private handlers, with
  its length check, and the lenient one of the public `Generate` handler,
  which has none and panics on an empty string;
- the preview handler's config resolution: end time, colour fallbacks, font
  sizes and matte colour (`handlers/private/preview.go`);
- palette validation: the regex-based hex validator, the ordered create
  checks with the 20-palette cap, and partial-update construction
  (`handlers/private/palette.go`);
- the countdown handlers: the style-map to config builder, the timer-type
  mapping onto the schema's three types, end-time precedence, and the update
  maps of `UpdateCountdown` and `SaveExistingCountdown`
  (`handlers/private/countdown.go`);
- the font registry as a state transition on a name-to-font cache
  (`gif/fonts.go`).

Durations and instants are integers counting nanoseconds, as Go's
`time.Duration`. Colours are `color.RGBA` with four 0..255 channels. Strings
are `seq<char>`, and Go's `len` is modelled as the UTF-8 byte length. The
wall clock is a parameter `now`. RFC 3339 parsing (section 5.6 of RFC 3339) is
an oracle `parseTime: string -> Option<Instant>`. Reading and parsing a font
file is an oracle `load: string -> Option<Font>`. Handlers become pure
functions returning `Result` values; HTTP status codes are not modelled.

`gif/generator.go` draws each frame as plain text on a solid background,
and its `gif.Config` declares only `EndTime`, `Background`, `TextColor`,
`Width` and `Height`. The private handlers nevertheless set further styling
and expiry fields on `gif.Config` and call `CalcDimensions`, neither of
which gif/generator.go declares. The model stops at the config those
handlers build (`Render.RenderConfig`).

Modules, one per file: `Wrappers` (Option/Result), `Colors`, `Clock`,
`Generator`, `GenerateHandler`, `Render`, `Preview`, `Palettes`,
`Countdowns`, `Fonts`.

## Model

| member | source | states |
|---|---|---|
| Clock.ClockOf | gif/generator.go:99-106 | Minutes and seconds are below 60. A negative duration gives all zeros. Otherwise hours·3600 + minutes·60 + seconds is the whole number of seconds, so hours are total hours and never wrap into days |
| Clock.WholeUnits | gif/generator.go:104-106 | Whole minutes and hours are whole seconds divided by 60 and 3600, and the three fields recombine into the whole seconds |
| Clock.Render | gif/generator.go:108 | `%02d:%02d:%02d` puts colons third- and sixth-from-last, the text is exactly 8 characters iff hours < 100, and it starts with "0" iff hours < 10 |
| Clock.FormatDuration | gif/generator.go:99-109 | Negative durations print exactly "00:00:00". Output is colon-separated with two-digit minutes and seconds, is 8 characters whenever d < 100 h, and starts with "0" exactly when d < 10 h, so the hour field never carries a superfluous zero |
| Clock.Pad2 | gif/generator.go:108 | `%02d` pads to at least two digits, exactly two iff the number is below 100, and starts with "0" iff the number is below 10 |
| Clock.Pad2RoundTrip | gif/generator.go:108 | A padded field reads back as the number printed |
| Clock.Decimal | gif/generator.go:108 | `%d` prints at least one decimal digit, one digit exactly below 10 and two exactly from 10 to 99, and starts with "0" only for zero |
| Clock.DecimalRoundTrip | gif/generator.go:108 | `%d` digits read back as the number printed (induction) |
| Clock.RenderRoundTrip | gif/generator.go:108 | Parsing the rendered clock face gives back the same hours, minutes and seconds |
| Clock.FormatRoundTrip | gif/generator.go:99-109 | The countdown text always reads back as the fields of `ClockOf(d)`, so no information is lost in printing |
| Clock.ZeroDisplayIff | gif/generator.go:99-106 | The text is "00:00:00" exactly when less than one whole second remains, negative durations included |
| Clock.ZeroFace | gif/generator.go:100-102 | The zero face prints as "00:00:00" and reads back as zeros |
| Clock.HoursDoNotWrap | gif/generator.go:104-108 | 50 h prints "50:00:00" and 100 h prints "100:00:00": hours are not taken modulo 24 and may exceed two digits |
| Generator.Blend | gif/generator.go:118-123 | A palette channel lies between its two endpoints, is the background at step 0 and the text colour at step 31 |
| Generator.BlendBounds | gif/generator.go:119-123 | The weighted sum of the endpoints lies between 31·min and 31·max |
| Generator.CreatePalette | gif/generator.go:111-129 | Exactly 32 entries, all with alpha 255. Entry 0 is the background's RGB and entry 31 the text colour's RGB. Every channel lies between the two endpoints |
| Generator.Generate | gif/generator.go:40-84 | Exactly 60 frames and 60 delays, every delay 100, loop count 0. The palette is `createPalette(bg, text)`. Frame i has the config's size and shows `formatDuration(end − t_i − i s)`, where t_i is the instant goroutine i reads the clock |
| Generator.FramesTickBySeconds | gif/generator.go:63-64 | While frame i+1 still has time left: read at one instant, frame i shows exactly one second more than frame i+1; read by goroutines less than a second apart, frame i shows between zero and two seconds more |
| Generator.ShownSeconds | gif/generator.go:63-64 | The seconds a frame's text reads back as are the whole seconds of its time left, or zero once that is negative |
| Generator.SkewCanSkipASecond | gif/generator.go:63 | Two neighbouring goroutines reading the clock one nanosecond apart across a second boundary show 10 and then 8 seconds |
| Generator.ZerosAreFinal | gif/generator.go:63-64 | Once frame i shows "00:00:00", so does every frame j ≥ i whose clock read is at most (j − i) seconds earlier, which covers one shared reading and reads less than a second apart |
| Generator.NinetySecondsExample | gif/generator.go:63-64 | Ninety seconds before the end, read at one instant, the first frame shows "00:01:30" and the sixtieth "00:00:31" |
| Generator.NinetySecondsText | gif/generator.go:99-109 | Ninety seconds print as "00:01:30" |
| Generator.ThirtyOneSecondsText | gif/generator.go:99-109 | Thirty-one seconds print as "00:00:31" |
| Colors.HexDigit | handlers/private/preview.go:168 | The `%x` digit printed for a value below 16 scans back to that value |
| Colors.HexByte | handlers/private/preview.go:168 | `%02x` of a byte is two hex digits that scan back to the byte |
| Colors.FormatHex | handlers/private/palette.go:15 | `#rrggbb` has 7 characters, a leading '#', six hex digits, and the three pairs spell the channels |
| Colors.Utf8Width | handlers/private/preview.go:165 | A character takes 1 to 4 bytes, and one byte exactly when it is ASCII |
| Colors.Utf8LengthAscii | handlers/private/preview.go:165 | Go's `len` equals the character count exactly when the string is ASCII |
| Colors.Utf8LengthAppend | handlers/private/preview.go:165 | Go's `len` is additive over concatenation |
| Colors.ScanHexField | handlers/private/preview.go:168 | One `%02x` conversion consumes one or two characters of the input |
| Colors.ScanHexTripleSpec | handlers/private/preview.go:168 | `Sscanf("%02x%02x%02x")` succeeds exactly when the first five characters are hex digits, and then yields the colour those fields spell |
| Colors.ParseHexStrict | handlers/private/preview.go:160-173 | After one optional '#' is dropped, a byte length other than 6 is an error. Every success has alpha 255 |
| Colors.ParseHexLenient | handlers/generate.go:72-85 | Needs a non-empty input, since `hex[0]` panics on "". Every success has alpha 255 |
| Colors.ParseColorOrDefault | handlers/private/preview.go:149-158 | The empty string and every parse failure give the fallback. Otherwise the parsed, opaque colour. This also models `parseColorFallback` (handlers/private/countdown.go:226-235) |
| Colors.StrictAcceptsIff | handlers/private/preview.go:160-172 | The strict parser accepts exactly: one optional '#' dropped, then five hex digits and one ASCII character. The result is the colour the scanned fields spell |
| Colors.StrictSixDigits | handlers/private/preview.go:162-172 | Six hex digits of either case, with or without '#', parse to the bytes they spell, with A = 255 |
| Colors.StrictRejectsMalformed | handlers/private/preview.go:162-167 | "", "#" and "##123456" are rejected: only one '#' is stripped |
| Colors.StrictFormatRoundTrip | handlers/private/preview.go:160-172 | Printing a colour as `#%02x%02x%02x` and parsing it gives the colour back, made opaque |
| Colors.StrictAcceptsShortBlue | handlers/private/preview.go:165-168 | "12345G" passes the length check and scans as 12, 34, 5, giving RGBA(0x12, 0x34, 0x05, 255) |
| Colors.LenientAcceptsIff | handlers/generate.go:75-84 | The lenient parser accepts exactly: one optional '#' dropped, then at least five characters, the first five hex digits |
| Colors.LenientIgnoresTail | handlers/generate.go:75-84 | Six hex digits parse to their bytes whatever follows them, while the strict parser rejects any non-empty tail |
| Colors.LenientAcceptsEightDigits | handlers/generate.go:79-84 | "FFFFFFFF" is white to the lenient parser and an error to the strict one |
| Colors.ColorOrDefaultFormatted | handlers/private/preview.go:149-158 | A formatted colour never falls back, whatever the fallback |
| GenerateHandler.PrepareGenerate | handlers/generate.go:38-62 | An end time that does not parse is "Invalid endTime format". After it, a non-empty background that does not parse is "Invalid background color", and after that a non-empty text colour that does not parse is "Invalid text color". The config exists exactly when the end time parses and both colours are non-empty and parse leniently. It then holds those values and the fixed 534×143 canvas |
| GenerateHandler.ServeGenerate | handlers/generate.go:29-70 | Rejected exactly when `PrepareGenerate` rejects, with the same rejection. Otherwise the GIF has 60 frames of 534×143, frame i showing `formatDuration(parsed end − t_i − i s)`, every delay 100, loop 0, and the palette blended from the two parsed colours |
| GenerateHandler.PanicOnlyAfterEarlierChecks | handlers/generate.go:38-54 | The handler panics exactly when the end time parses and either the background is empty, or it parses and the text colour is empty |
| GenerateHandler.TemplateIgnored | handlers/generate.go:56-62 | The template's font size and layout never affect the result |
| GenerateHandler.LongColoursAccepted | handlers/generate.go:44-62 | Colours with anything after their first six hex digits, with or without '#', are accepted, and the config holds the colours those digits spell |
| Preview.PreviewEndTime | handlers/private/preview.go:66-78 | A "fixed" timer with an end time uses the parsed time, and a parse failure is the only error. Otherwise a positive duration counts from now, else now + 24 h; either way the end is after now |
| Preview.SizeOrDefault | handlers/private/preview.go:90-100 | Sizes ≤ 0 become the default (60 or 14); positive sizes are kept; the result is always positive |
| Preview.PreviewBackground | handlers/private/preview.go:80-84 | The matte colour replaces the background only for a transparent preview with a parseable matte. Otherwise the bg colour, white by default |
| Preview.ResolvePreview | handlers/private/preview.go:66-133 | Fails exactly when the end time does. Positive sizes are kept, others become 60 and 14. Label, separator and expire-text colours are their own parsed colour, or else the resolved number colour. Fonts, the show flags, transparency, rounded corners, the radius and the expiry text fields are copied from the request |
| Preview.EmptyRequestDefaults | handlers/private/preview.go:66-133 | An empty request previews a day-long countdown in black on white at sizes 60 and 14, with every flag off |
| Preview.FallbacksFollowNumberColor | handlers/private/preview.go:86-88 | With label, separator and expire colours unset, all three equal whatever number colour is given (the expire colour is set at line 132) |
| Preview.MatteNeedsTransparency | handlers/private/preview.go:82-84 | The matte colour has no effect on a non-transparent preview |
| Palettes.RunDead | handlers/private/palette.go:15 | The matcher's dead state absorbs every input |
| Palettes.RunDigits | handlers/private/palette.go:15 | From digit state q, the matcher accepts exactly 7 − q further hex digits and nothing else (induction) |
| Palettes.ValidHexColorIff | handlers/private/palette.go:31-33 | `isValidHexColor` holds iff the string is '#' followed by exactly six hex digits and nothing more |
| Palettes.ValidHexColorParses | handlers/private/palette.go:15 | Every string the validator accepts parses under the strict parser of handlers/private/preview.go, to the colour its digits spell |
| Palettes.FormattedColorValid | handlers/private/palette.go:15 | Every `#rrggbb` the model prints passes the validator |
| Palettes.ValidatorStricterThanParser | handlers/private/palette.go:15 | "FFFFFF" and "#12345G" fail the validator but parse under the strict parser |
| Palettes.ValidateCreate | handlers/private/palette.go:44-61 | Checks run in order: empty name, then any invalid colour, then a failed count, then count ≥ 20. The first failure decides the error, and success is exactly when all pass |
| Palettes.CreatesRespectCap | handlers/private/palette.go:58-61 | Sequential creates never push a user's count past 20 or lower it, and at 20 nothing more is created (induction) |
| Palettes.CreatedColorsParse | handlers/private/palette.go:48 | Every colour a created palette stores parses under the strict parser |
| Palettes.ColumnNamesDistinct | handlers/private/palette.go:105-126 | The four update columns have distinct names |
| Palettes.AddColor | handlers/private/palette.go:107-126 | An absent colour leaves the map unchanged, a valid one is added under its column, and an invalid one is an error naming that column |
| Palettes.BuildPaletteUpdates | handlers/private/palette.go:99-132 | A provided empty name is rejected. The first invalid colour, in primary, secondary, accent order, is reported under its own column. The map's keys are exactly the provided fields and never empty, every colour in it is valid, and nothing provided is "No fields to update" |
| Palettes.PaletteUpdatesRoundTrip | handlers/private/palette.go:99-127 | The update map holds exactly the provided values: decoding it gives back the request |
| Palettes.PaletteUpdateAcceptedIff | handlers/private/palette.go:99-132 | An update is accepted iff the name, if given, is non-empty, every given colour is valid, and something is given |
| Palettes.FirstInvalidColorReported | handlers/private/palette.go:107-127 | An invalid primary is reported whatever follows, an invalid secondary after an omitted or valid primary, and an invalid accent after both |
| Countdowns.SchemaName | internal/models/countdown.go:10-19 | Every countdown type's name is one the schema's check constraint allows |
| Countdowns.MapTimerType | handlers/private/countdown.go:66-72 | "on_send" and only it maps to on_send, "on_open" and only it to on_open, anything else to fixed |
| Countdowns.TimerTypeRoundTrip | handlers/private/countdown.go:66-72 | Mapping a schema name gives back its type. A string survives the round trip iff it is one of the schema's allowed values |
| Countdowns.Trunc | handlers/private/countdown.go:219-221 | Go's `int(v)` truncates toward zero: the result is within one of v, on the zero side |
| Countdowns.BuildStyle | handlers/private/countdown.go:144-224 | A nil map gives exactly the defaults. Both font sizes are always positive |
| Countdowns.OverridesAreLocal | handlers/private/countdown.go:165-221 | Each override reads only its own key: keeping just that key's entry (or none) gives the same value for any current setting |
| Countdowns.ColorsAreLocal | handlers/private/countdown.go:165-176 | The background, number, label and separator colours each depend only on their own key's entry |
| Countdowns.FontsAndSizesAreLocal | handlers/private/countdown.go:179-221 | The two font names, the two font sizes and the corner radius each depend only on their own key's entry |
| Countdowns.FlagsAreLocal | handlers/private/countdown.go:195-218 | Each of the eight flags depends only on its own key's entry, so for example `show_days` never changes `show_hours` |
| Countdowns.EmptyStyleIsDefault | handlers/private/countdown.go:145-162 | A nil or an empty map gives white background; black text, labels and separators; sizes 60 and 14; labels, separators and all four units shown |
| Countdowns.ColorDropped | handlers/private/countdown.go:164-176 | Removing an entry changes no colour override unless it is a parseable, non-empty colour under that very key |
| Countdowns.OthersDropped | handlers/private/countdown.go:178-221 | Removing a mistyped or non-positive entry changes no font, size, flag or radius override |
| Countdowns.IneffectiveEntryIgnored | handlers/private/countdown.go:164-221 | Dropping an entry of the wrong type changes nothing, nor does an empty or unparseable colour or a size ≤ 0 |
| Countdowns.UnknownKeysIgnored | handlers/private/countdown.go:164-221 | Keys the builder does not read never affect the config |
| Countdowns.LabelColorDoesNotFollowNumberColor | handlers/private/countdown.go:151-176 | Unlike the preview, setting only the number colour leaves labels and separators black |
| Countdowns.EncodeStyle | handlers/private/countdown.go:144-224 | The encoded style map has exactly the keys the builder reads |
| Countdowns.EncodedColors | handlers/private/countdown.go:165-176 | The encoded style map holds every colour as `#rrggbb` under its key |
| Countdowns.EncodedSizesAndFonts | handlers/private/countdown.go:178-221 | The encoded style map holds fonts, sizes and radius under their keys |
| Countdowns.EncodedFlags | handlers/private/countdown.go:194-218 | The encoded style map holds every flag under its key |
| Countdowns.BuiltColors | handlers/private/countdown.go:164-176 | A map holding four formatted opaque colours under the colour keys yields exactly those colours |
| Countdowns.BuiltFontsAndSizes | handlers/private/countdown.go:178-221 | A map holding fonts, positive sizes and a whole radius under their keys yields exactly those values |
| Countdowns.BuiltFlags | handlers/private/countdown.go:194-218 | A map holding booleans under the flag keys yields exactly those flags |
| Countdowns.ColorOverrideFormatted | handlers/private/countdown.go:164-176 | A colour key holding a formatted colour overrides with that colour |
| Countdowns.StyleRoundTrip | handlers/private/countdown.go:144-224 | Every config with opaque colours and positive sizes is rebuilt exactly from its style map, so the builder reaches every such config |
| Countdowns.ParsedEndTime | handlers/private/countdown.go:74-81 | An empty end time is absent. Otherwise the parse result, so a malformed one is absent too |
| Countdowns.SelectEndTime | handlers/private/countdown.go:107-114 | A parsed end time wins, then now + duration seconds, then now + 24 h |
| Countdowns.MalformedEndTimeIsAbsent | handlers/private/countdown.go:74-81 | A malformed end time selects the same end as no end time at all |
| Countdowns.NegativeDurationEndsInPast | handlers/private/countdown.go:110-111 | The duration is not checked for sign, so a negative one ends before now |
| Countdowns.PlanCreate | handlers/private/countdown.go:61-114 | Fails exactly on an empty name. Otherwise it stores the name, the duration and the mapped type, and the end time exactly when it parses. The render config uses the built style and renders to the parsed end time, else now plus the duration, else a day from now |
| Countdowns.SaveUpdates | handlers/private/countdown.go:254-281 | The map always holds the type. It holds the name iff non-empty, the end time iff it parses, the duration iff given, and nothing else |
| Countdowns.PlanSave | handlers/private/countdown.go:262-316 | The update map is `SaveUpdates`. The preview is re-rendered to the stored end time when one parses, else to now plus the duration, else to a day from now |
| Countdowns.SaveNeverEmpty | handlers/private/countdown.go:270-281 | A save's update map is never empty and never sets an empty name |
| Countdowns.BuildCountdownUpdates | handlers/private/countdown.go:417-434 | The map's keys are exactly the non-nil fields. An empty map is rejected with "No fields to update" |
| Countdowns.CountdownUpdatesRoundTrip | handlers/private/countdown.go:417-429 | The update map holds exactly the provided values: decoding it gives back the request |
| Fonts.InitFontRegistry | gif/fonts.go:23-34 | Fails (the startup panic) exactly when Arial cannot be loaded. Otherwise the registry holds only "Arial", mapped to the fallback font |
| Fonts.GetFont | gif/fonts.go:37-72 | The empty name gives the fallback and leaves the registry alone. So do cached names, with their font, and unknown names. A load failure caches nothing; a success caches exactly the loaded font. The fallback never changes |
| Fonts.RegistryOnlyGrows | gif/fonts.go:43-67 | No entry is removed or replaced, and at most the looked-up name is added |
| Fonts.GetFontIdempotent | gif/fonts.go:43-68 | Asking twice gives the same font, and the second call changes nothing |
| Fonts.InitCoherent | gif/fonts.go:23-34 | Initialisation gives a registry whose cache agrees with the font files |
| Fonts.GetFontMatchesUncached | gif/fonts.go:37-72 | Lookups keep the cache coherent with the files, and on such a registry the answer is the one a lookup with no cache gives |
| Fonts.InitialisedRegistryIsFixed | gif/fonts.go:37-72 | With Arial the only font in the file table (lines 19-21), an initialised registry never changes |
| Fonts.GetFonts | gif/fonts.go:37-72 | A run of lookups answers each name as an uncached lookup would and leaves the registry as it was |

## Left out

- Whitespace handling of `fmt.Sscanf`: Go's `%x` verbs skip leading spaces inside the input, e.g. " 12345". The model's scanner reads hex digits only. So `ScanHexTripleSpec`, `StrictAcceptsIff` and `LenientAcceptsIff` describe inputs without spaces; for such inputs the scanner may accept strings the model rejects.
- Colors.ParseHexStrict: the contract fixes the length check and opacity; which strings are accepted is stated by `StrictAcceptsIff`, under the whitespace caveat above.
- Floating point in `formatDuration`: `d.Hours()`, `d.Minutes()` and `d.Seconds()` are float64, truncated by `int`. The model uses integer division, which differs only within nanoseconds of a boundary at very large durations.
- Generator.Blend: a channel is the exact `(bg·(31−i) + text·i) / 31` truncated. Go computes this in float64 and may differ by one at interior steps, so the bound "between the two endpoints" is the model's: with both channels 255, Go gives 254 at steps 6, 13 and 14. Steps 0 and 31 are exact.
- Generator.CreatePalette: interior entries inherit the float64 drift of `Generator.Blend` described above. The endpoints, size and alpha are exact.
- 64-bit overflow: `time.Duration` is int64. The model's durations and `duration · 1 s` are unbounded, so the wrap-around for durations beyond about 292 years is not modelled.
- Countdowns.Trunc: Go's `int(v)` for a float64 outside the int range, or NaN, is implementation-defined; the model truncates every real.
- Generator.Generate: the goroutines and `WaitGroup` are not modelled as threads. Each goroutine's own call to `time.Until` is kept, as the parameter `clock`, but the order in which the goroutines read the clock is not: lemmas about neighbouring frames take the two reads as given. The two timing `fmt.Printf` calls (gif/generator.go:85 and :90) are console output and are not modelled.
- The `RWMutex` in `GetFont`: the model is sequential, and a lookup reads the registry once.
- The second check of the registry under the write lock in `GetFont` (gif/fonts.go:55-57) only matters under concurrency; sequentially it never fires.
- Rasterisation, font faces, `draw.Draw` quantisation and `gif.EncodeAll`: foreign library calls. A frame is modelled as its size and its text.
- The `init` font load of gif/generator.go:28-38: the same file read as `InitFontRegistry`, used only for drawing.
- JSON decoding, `DisallowUnknownFields`, HTTP status codes, headers and bodies: handlers are modelled from the decoded request on. Go's zero values stand for omitted fields.
- The `json.Marshal` of the style map and the stored template: storage only, not read back by the modelled code.
- Database queries (create, count, update, get template), R2 upload and delete, `R2_PUBLIC_URL`, and the preview-URL update: I/O. `ValidateCreate` takes the count query's result as a parameter, where `None` is a failed query.
- The race between counting and creating palettes: two concurrent creates can both see 19. `CreatesRespectCap` is about sequential creates.
- `CalcDimensions`, the expiry rendering and the extended `gif.Config` fields: they are not declared in gif/generator.go, so the model stops at the config the handlers build.
- `ListCountdowns`: it builds a filter map from the query string before querying (a `type` filter unless the value is empty or "all"; `is_soft_deleted` true for `archived=true`, no filter for `archived=all`, false otherwise). This filter is not modelled.
- `DeleteCountdown`: it deletes the row, then the stored preview `previews/<id>.gif`, and only logs a failure of the second step. Both are I/O and are not modelled.
- `GetCountdown`, `ListPalettes`, `DeletePalette`, `GetTemplate`, `UpdateTemplate`, middleware and routing: one query each, with a missing record mapped to 404 and the result encoded as JSON. These are I/O and are not modelled.
- The font oracle `load` is a fixed function. Font files changing on disk between lookups are not modelled.

=== FILE: clock.dfy ===
/** Durations and the countdown text of `formatDuration`.

    Go's time.Duration is a signed count of nanoseconds, and instants are
    modelled the same way, as nanoseconds from a fixed epoch. `d.Hours()`,
    `d.Minutes()` and `d.Seconds()` followed by `int(...)` are whole-unit
    truncations, written here as integer division of a non-negative count. */
module Clock {
  import opened Wrappers

  /** Go's time.Duration, in nanoseconds. */
  type Duration = int

  /** A point in time, in nanoseconds from a fixed epoch. */
  type Instant = int

  const Second: int := 1_000_000_000
  const Minute: int := 60 * Second
  const Hour: int := 60 * Minute

  // ---------------------------------------------------------------------
  // Decimal digits, as `%d` and `%02d` print them
  // ---------------------------------------------------------------------

  predicate IsDigit(ch: char) {
    '0' <= ch <= '9'
  }

  predicate AllDigits(s: string) {
    forall i :: 0 <= i < |s| ==> IsDigit(s[i])
  }

  function DigitChar(v: nat): (ch: char)
    requires v < 10
    ensures IsDigit(ch)
  {
    ('0' as int + v) as char
  }

  function DigitValue(ch: char): nat
    requires IsDigit(ch)
  {
    ch as int - '0' as int
  }

  /** `%d` of a non-negative integer: no leading zeros. */
  function Decimal(n: nat): (s: string)
    ensures |s| >= 1 && AllDigits(s)
    ensures n < 10 <==> |s| == 1
    ensures 10 <= n < 100 <==> |s| == 2
    ensures s[0] == '0' <==> n == 0
  {
    if n < 10 then [DigitChar(n)] else Decimal(n / 10) + [DigitChar(n % 10)]
  }

  /** The number a string of decimal digits denotes. */
  function DecimalValue(s: string): nat
    requires AllDigits(s)
  {
    if |s| == 0 then 0 else 10 * DecimalValue(s[..|s| - 1]) + DigitValue(s[|s| - 1])
  }

  lemma {:induction false} DecimalRoundTrip(n: nat)
    ensures DecimalValue(Decimal(n)) == n
  {
    var s := Decimal(n);
    if n >= 10 {
      DecimalRoundTrip(n / 10);
      assert s[..|s| - 1] == Decimal(n / 10);
    }
  }

  /** `%02d` of a non-negative integer: zero-padded to at least two digits. */
  function Pad2(n: nat): (s: string)
    ensures |s| >= 2 && AllDigits(s)
    ensures n < 100 <==> |s| == 2
    ensures s[0] == '0' <==> n < 10
  {
    if n < 10 then "0" + Decimal(n) else Decimal(n)
  }

  /** A padded field reads back as the number it prints. */
  lemma Pad2RoundTrip(n: nat)
    ensures DecimalValue(Pad2(n)) == n
  {
    DecimalRoundTrip(n);
    if n < 10 {
      var s := Pad2(n);
      assert s[..|s| - 1] == "0";
    }
  }

  // ---------------------------------------------------------------------
  // formatDuration
  // ---------------------------------------------------------------------

  /** The three fields a countdown shows. */
  datatype ClockFace = ClockFace(hours: nat, minutes: nat, seconds: nat)

  function TotalSeconds(c: ClockFace): nat {
    c.hours * 3600 + c.minutes * 60 + c.seconds
  }

  /** The fields `formatDuration` computes for `d`: whole hours with no
      wrap into days, then minutes and seconds within their unit; a negative
      duration shows all zeros. */
  function ClockOf(d: Duration): (c: ClockFace)
    ensures c.minutes < 60 && c.seconds < 60
    ensures d < 0 ==> c == ClockFace(0, 0, 0)
    ensures d >= 0 ==> TotalSeconds(c) == d / Second
  {
    if d < 0 then ClockFace(0, 0, 0)
    else
      WholeUnits(d);
      ClockFace(d / Hour, (d / Minute) % 60, (d / Second) % 60)
  }

  /** Whole minutes and hours are whole seconds divided by 60 and 3600. */
  lemma WholeUnits(d: Duration)
    requires d >= 0
    ensures d / Minute == (d / Second) / 60
    ensures d / Hour == (d / Second) / 3600
    ensures (d / Hour) * 3600 + ((d / Minute) % 60) * 60 + (d / Second) % 60 == d / Second
  {
    var q, r := d / Second, d % Second;
    assert d == q * Second + r && 0 <= r < Second;
    var qm, rm := q / 60, q % 60;
    assert d == qm * Minute + (rm * Second + r);
    assert 0 <= rm * Second + r < Minute;
    var qh, rh := q / 3600, q % 3600;
    assert d == qh * Hour + (rh * Second + r);
    assert 0 <= rh * Second + r < Hour;
    assert qm == 60 * qh + qm % 60;
  }

  /** The `%02d:%02d:%02d` rendering of a clock face. */
  function Render(c: ClockFace): (s: string)
    requires c.minutes < 60 && c.seconds < 60
    ensures |s| >= 8 && s[|s| - 3] == ':' && s[|s| - 6] == ':'
    ensures c.hours < 100 <==> |s| == 8
    ensures s[0] == '0' <==> c.hours < 10
  {
    var s := Pad2(c.hours) + ":" + Pad2(c.minutes) + ":" + Pad2(c.seconds);
    assert s == Pad2(c.hours) + ":" + Pad2(c.minutes) + (":" + Pad2(c.seconds));
    s
  }

  /** `formatDuration`: negative durations show "00:00:00"; otherwise the
      whole hours, minutes and seconds remaining, each zero-padded to two
      digits and colon-separated. */
  function FormatDuration(d: Duration): (s: string)
    ensures d < 0 ==> s == "00:00:00"
    ensures |s| >= 8 && s[|s| - 3] == ':' && s[|s| - 6] == ':'
    ensures d < 100 * Hour ==> |s| == 8
    ensures s[0] == '0' <==> d < 10 * Hour
  {
    if d < 0 then "00:00:00"
    else Render(ClockOf(d))
  }

  // ---------------------------------------------------------------------
  // Reading the text back
  // ---------------------------------------------------------------------

  /** Reads `H..H:MM:SS` (at least two hour digits, exactly two minute and
      second digits) back into a clock face. */
  function ParseClock(s: string): Option<ClockFace> {
    if |s| < 8 || s[|s| - 3] != ':' || s[|s| - 6] != ':' then None
    else
      var h, m, sec := s[..|s| - 6], s[|s| - 5..|s| - 3], s[|s| - 2..];
      if AllDigits(h) && AllDigits(m) && AllDigits(sec)
      then Some(ClockFace(DecimalValue(h), DecimalValue(m), DecimalValue(sec)))
      else None
  }

  lemma RenderRoundTrip(c: ClockFace)
    requires c.minutes < 60 && c.seconds < 60
    ensures ParseClock(Render(c)) == Some(c)
  {
    var ph, pm, ps := Pad2(c.hours), Pad2(c.minutes), Pad2(c.seconds);
    assert Render(c) == ph + ":" + pm + ":" + ps;
    FieldsOfJoin(ph, pm, ps);
    Pad2RoundTrip(c.hours);
    Pad2RoundTrip(c.minutes);
    Pad2RoundTrip(c.seconds);
  }

  /** Where `ParseClock` cuts a joined `H:MM:SS` text. */
  lemma FieldsOfJoin(h: string, m: string, sec: string)
    requires |h| >= 2 && |m| == 2 && |sec| == 2
    ensures var s := h + ":" + m + ":" + sec;
      && |s| >= 8 && s[|s| - 3] == ':' && s[|s| - 6] == ':'
      && s[..|s| - 6] == h && s[|s| - 5..|s| - 3] == m && s[|s| - 2..] == sec
  {
    var s := h + ":" + m + ":" + sec;
    assert |s| == |h| + 6;
    assert s[..|s| - 6] == h;
    assert s[|s| - 5..|s| - 3] == m;
    assert s[|s| - 2..] == sec;
  }

  /** The countdown text always reads back as the fields of `ClockOf`, so no
      two different clock faces are ever printed alike. */
  lemma FormatRoundTrip(d: Duration)
    ensures ParseClock(FormatDuration(d)) == Some(ClockOf(d))
  {
    if d < 0 {
      ZeroFace();
    } else {
      RenderRoundTrip(ClockOf(d));
    }
  }

  /** The text is all zeros exactly when less than one whole second remains:
      negative durations are clamped, and sub-second rests are truncated. */
  lemma ZeroDisplayIff(d: Duration)
    ensures FormatDuration(d) == "00:00:00" <==> d < Second
  {
    if 0 <= d < Second {
      assert ClockOf(d) == ClockFace(0, 0, 0);
      ZeroFace();
    }
    if FormatDuration(d) == "00:00:00" {
      FormatRoundTrip(d);
      ZeroFace();
      assert TotalSeconds(ClockOf(d)) == 0;
    }
  }

  lemma ZeroFace()
    ensures Render(ClockFace(0, 0, 0)) == "00:00:00"
    ensures ParseClock("00:00:00") == Some(ClockFace(0, 0, 0))
  {
    RenderRoundTrip(ClockFace(0, 0, 0));
  }

  /** Hours are not reduced modulo 24: fifty hours show as "50:00:00", and
      from one hundred hours on the hour field grows past two digits. */
  lemma HoursDoNotWrap()
    ensures FormatDuration(50 * Hour) == "50:00:00"
    ensures FormatDuration(100 * Hour) == "100:00:00"
  {
    assert ClockOf(50 * Hour) == ClockFace(50, 0, 0);
    assert Decimal(50) == "50";
    assert ClockOf(100 * Hour) == ClockFace(100, 0, 0);
    assert Decimal(100) == "100";
  }
}

=== FILE: colors.dfy ===
/** Hex colour strings: the strict `parseHexColor` of the private handlers,
    the lenient one of the public generate handler, the `parseColorOrDefault`
    fallback built on the strict one, and the `%02x` formatting they invert.

    Go's `fmt.Sscanf(hex, "%02x%02x%02x", &r, &g, &b)` is modelled as three
    consecutive conversions, each reading one or two hex digits (greedily, at
    most two because of the width) and failing when no digit is there. Input
    left over after the third conversion is ignored, as Sscanf ignores it. */
module Colors {
  import opened Wrappers

  /** An 8-bit colour channel (Go's uint8). */
  type Byte = x: int | 0 <= x < 256

  /** Go's color.RGBA. For such a colour `RGBA() >> 8` gives back each 8-bit
      channel exactly, so the 16-bit view of image/color is not modelled. */
  datatype Color = RGBA(r: Byte, g: Byte, b: Byte, a: Byte)

  const White: Color := RGBA(255, 255, 255, 255)
  const Black: Color := RGBA(0, 0, 0, 255)

  /** `c`'s red, green and blue with full opacity: what every parse yields. */
  function Opaque(c: Color): Color {
    RGBA(c.r, c.g, c.b, 255)
  }

  predicate IsHexDigit(ch: char) {
    ('0' <= ch <= '9') || ('a' <= ch <= 'f') || ('A' <= ch <= 'F')
  }

  predicate AllHex(s: string) {
    forall i :: 0 <= i < |s| ==> IsHexDigit(s[i])
  }

  function HexValue(ch: char): (v: nat)
    requires IsHexDigit(ch)
    ensures v < 16
  {
    if '0' <= ch <= '9' then ch as int - '0' as int
    else if 'a' <= ch <= 'f' then ch as int - 'a' as int + 10
    else ch as int - 'A' as int + 10
  }

  /** The lower-case digit `%x` prints for `v`. */
  function HexDigit(v: nat): (ch: char)
    requires v < 16
    ensures IsHexDigit(ch) && HexValue(ch) == v
  {
    if v < 10 then ('0' as int + v) as char else ('a' as int + (v - 10)) as char
  }

  /** The byte denoted by two hex digits, high digit first. */
  function PairValue(hi: char, lo: char): Byte
    requires IsHexDigit(hi) && IsHexDigit(lo)
  {
    HexValue(hi) * 16 + HexValue(lo)
  }

  /** `%02x` of one byte. */
  function HexByte(b: Byte): (s: string)
    ensures |s| == 2 && AllHex(s) && PairValue(s[0], s[1]) == b
  {
    [HexDigit(b / 16), HexDigit(b % 16)]
  }

  /** `#rrggbb` in lower case, the shape of the colours the palettes store. */
  function FormatHex(c: Color): (s: string)
    ensures |s| == 7 && s[0] == '#' && AllHex(s[1..])
    ensures PairValue(s[1], s[2]) == c.r && PairValue(s[3], s[4]) == c.g && PairValue(s[5], s[6]) == c.b
  {
    var s := "#" + HexByte(c.r) + HexByte(c.g) + HexByte(c.b);
    assert s[1..] == HexByte(c.r) + HexByte(c.g) + HexByte(c.b);
    s
  }

  /** The colour six hex digits denote, with full opacity. */
  function DigitsColor(digits: string): Color
    requires |digits| == 6 && AllHex(digits)
  {
    RGBA(PairValue(digits[0], digits[1]), PairValue(digits[2], digits[3]), PairValue(digits[4], digits[5]), 255)
  }

  // ---------------------------------------------------------------------
  // Go's len(string): the UTF-8 byte length
  // ---------------------------------------------------------------------

  /** Bytes in the UTF-8 encoding of one character. */
  function Utf8Width(ch: char): (n: nat)
    ensures 1 <= n <= 4
    ensures n == 1 <==> ch as int < 0x80
  {
    if ch as int < 0x80 then 1
    else if ch as int < 0x800 then 2
    else if ch as int < 0x1_0000 then 3
    else 4
  }

  /** Go's `len` of a string: its length in UTF-8 bytes. */
  function Utf8Length(s: string): (n: nat)
    ensures n >= |s|
  {
    if |s| == 0 then 0 else Utf8Width(s[0]) + Utf8Length(s[1..])
  }

  predicate IsAscii(s: string) {
    forall i :: 0 <= i < |s| ==> s[i] as int < 0x80
  }

  /** A string's byte length equals its character count exactly when every
      character is ASCII. */
  lemma {:induction false} Utf8LengthAscii(s: string)
    ensures Utf8Length(s) == |s| <==> IsAscii(s)
  {
    if |s| > 0 {
      Utf8LengthAscii(s[1..]);
      assert IsAscii(s) <==> s[0] as int < 0x80 && IsAscii(s[1..]) by {
        if s[0] as int < 0x80 && IsAscii(s[1..]) {
          forall i | 0 <= i < |s| ensures s[i] as int < 0x80 {
            if i > 0 { assert s[i] == s[1..][i - 1]; }
          }
        }
      }
    }
  }

  lemma {:induction false} Utf8LengthAppend(a: string, b: string)
    ensures Utf8Length(a + b) == Utf8Length(a) + Utf8Length(b)
  {
    if |a| == 0 {
      assert a + b == b;
    } else {
      assert (a + b)[1..] == a[1..] + b;
      Utf8LengthAppend(a[1..], b);
    }
  }

  // ---------------------------------------------------------------------
  // fmt.Sscanf(hex, "%02x%02x%02x", &r, &g, &b)
  // ---------------------------------------------------------------------

  /** One `%02x` conversion: one or two hex digits, read greedily, giving the
      byte and the number of characters consumed; no digit is a scan error. */
  function ScanHexField(s: string): (r: Option<(Byte, nat)>)
    ensures r.Some? ==> 1 <= r.value.1 <= 2 && r.value.1 <= |s|
  {
    if |s| == 0 || !IsHexDigit(s[0]) then None
    else if |s| >= 2 && IsHexDigit(s[1]) then Some((PairValue(s[0], s[1]), 2))
    else Some((HexValue(s[0]), 1))
  }

  /** The three conversions in sequence, each starting where the previous one
      stopped; anything after the third is ignored. */
  function ScanHexTriple(s: string): Option<(Byte, Byte, Byte)> {
    match ScanHexField(s)
    case None => None
    case Some((r, n1)) =>
      match ScanHexField(s[n1..])
      case None => None
      case Some((g, n2)) =>
        match ScanHexField(s[n1 + n2..])
        case None => None
        case Some((b, _)) => Some((r, g, b))
  }

  /** The colour a successful scan of `s` yields: the first two fields are
      full pairs, and the third is a pair only when a sixth hex digit follows. */
  function ScannedColor(s: string): Color
    requires |s| >= 5 && AllHex(s[..5])
  {
    var b := if |s| >= 6 && IsHexDigit(s[5]) then PairValue(s[4], s[5]) else HexValue(s[4]);
    RGBA(PairValue(s[0], s[1]), PairValue(s[2], s[3]), b, 255)
  }

  /** The scan succeeds exactly when the first five characters are hex
      digits: a field that stops after one digit leaves the next field facing
      a non-digit, unless it is the last field. */
  lemma ScanHexTripleSpec(s: string)
    ensures ScanHexTriple(s).Some? <==> |s| >= 5 && AllHex(s[..5])
    ensures ScanHexTriple(s).Some? ==>
      var c := ScannedColor(s);
      ScanHexTriple(s).value == (c.r, c.g, c.b)
  {
    if |s| >= 5 && AllHex(s[..5]) {
      assert IsHexDigit(s[0]) && IsHexDigit(s[1]) && IsHexDigit(s[2]) && IsHexDigit(s[3]) && IsHexDigit(s[4]);
      assert s[2..][0] == s[2] && s[2..][1] == s[3];
      assert s[4..][0] == s[4];
      assert |s| >= 6 ==> s[4..][1] == s[5];
    } else if |s| >= 1 && IsHexDigit(s[0]) {
      if |s| >= 2 && IsHexDigit(s[1]) {
        if |s| >= 3 && IsHexDigit(s[2]) {
          if |s| >= 4 && IsHexDigit(s[3]) {
            assert s[2..][0] == s[2] && s[2..][1] == s[3];
            if |s| >= 5 {
              assert !IsHexDigit(s[4]) by {
                if IsHexDigit(s[4]) {
                  assert AllHex(s[..5]);
                }
              }
              assert s[4..][0] == s[4];
            }
          } else {
            assert s[2..][0] == s[2];
            assert |s| >= 4 ==> s[3..][0] == s[3];
          }
        } else {
          assert |s| >= 3 ==> s[2..][0] == s[2];
        }
      } else {
        assert |s| >= 2 ==> s[1..][0] == s[1];
      }
    }
  }

  // ---------------------------------------------------------------------
  // The two parseHexColor variants
  // ---------------------------------------------------------------------

  /** Drops one leading '#', as both parsers do. */
  function StripHash(hex: string): string {
    if |hex| > 0 && hex[0] == '#' then hex[1..] else hex
  }

  /** The strict `parseHexColor` of the private handlers: after dropping one
      '#', the rest must be six bytes long, then it is scanned. */
  function ParseHexStrict(hex: string): (r: Option<Color>)
    ensures Utf8Length(StripHash(hex)) != 6 ==> r.None?
    ensures r.Some? ==> r.value.a == 255
  {
    var s := StripHash(hex);
    if Utf8Length(s) != 6 then None
    else
      match ScanHexTriple(s)
      case None => None
      case Some((r, g, b)) => Some(RGBA(r, g, b, 255))
  }

  /** The lenient `parseHexColor` of the public generate handler: no length
      check. Indexing `hex[0]` of an empty string panics in Go, hence the
      precondition. */
  function ParseHexLenient(hex: string): (r: Option<Color>)
    requires |hex| > 0
    ensures r.Some? ==> r.value.a == 255
  {
    match ScanHexTriple(StripHash(hex))
    case None => None
    case Some((r, g, b)) => Some(RGBA(r, g, b, 255))
  }

  /** `parseColorOrDefault` (and its twin `parseColorFallback`): the fallback
      on an empty string or a strict parse error, otherwise the parsed colour. */
  function ParseColorOrDefault(hex: string, fallback: Color): (c: Color)
    ensures hex == "" ==> c == fallback
    ensures ParseHexStrict(hex).None? ==> c == fallback
    ensures ParseHexStrict(hex).Some? ==> c == ParseHexStrict(hex).value && c.a == 255
  {
    if hex == "" then fallback
    else
      match ParseHexStrict(hex)
      case None => fallback
      case Some(c) => c
  }

  // ---------------------------------------------------------------------
  // Properties of the strict parser
  // ---------------------------------------------------------------------

  /** The strict parser accepts exactly: after one optional '#', five hex
      digits followed by one more ASCII character. A non-hex sixth character
      is read as a one-digit blue field, because Sscanf stops there. */
  lemma StrictAcceptsIff(hex: string)
    ensures ParseHexStrict(hex).Some? <==>
      var s := StripHash(hex);
      |s| == 6 && AllHex(s[..5]) && s[5] as int < 0x80
    ensures ParseHexStrict(hex).Some? ==> ParseHexStrict(hex).value == ScannedColor(StripHash(hex))
  {
    var s := StripHash(hex);
    ScanHexTripleSpec(s);
    if |s| >= 5 && AllHex(s[..5]) {
      assert s == s[..5] + s[5..];
      Utf8LengthAppend(s[..5], s[5..]);
      assert IsAscii(s[..5]) by {
        forall i | 0 <= i < 5 ensures s[..5][i] as int < 0x80 {
          assert IsHexDigit(s[..5][i]);
        }
      }
      Utf8LengthAscii(s[..5]);
      if Utf8Length(s) == 6 {
        assert Utf8Length(s[5..]) == 1;
        assert |s[5..]| == 1;
        assert Utf8Width(s[5]) == 1 by {
          assert s[5..][0] == s[5];
        }
      }
      if |s| == 6 && s[5] as int < 0x80 {
        assert s[5..] == [s[5]];
      }
    }
  }

  /** Six hex digits, with or without a '#', parse to the bytes they spell
      with full opacity. */
  lemma StrictSixDigits(digits: string)
    requires |digits| == 6 && AllHex(digits)
    ensures ParseHexStrict(digits) == Some(DigitsColor(digits))
    ensures ParseHexStrict("#" + digits) == Some(DigitsColor(digits))
  {
    assert StripHash("#" + digits) == digits;
    assert digits[..5] == digits[..5];
    assert AllHex(digits[..5]);
    StrictAcceptsIff(digits);
    StrictAcceptsIff("#" + digits);
  }

  /** "", "#" and "##123456" are all rejected: only one '#' is dropped and
      what is left must be six bytes long. */
  lemma StrictRejectsMalformed()
    ensures ParseHexStrict("").None?
    ensures ParseHexStrict("#").None?
    ensures ParseHexStrict("##123456").None?
  {
    assert StripHash("##123456") == "#123456";
    assert Utf8Length("#123456") == 7;
  }

  /** Printing a colour with `#%02x%02x%02x` and parsing it back gives the
      colour's channels with full opacity. */
  lemma StrictFormatRoundTrip(c: Color)
    ensures ParseHexStrict(FormatHex(c)) == Some(Opaque(c))
  {
    var s := FormatHex(c);
    assert StripHash(s) == s[1..];
    StrictSixDigits(s[1..]);
    assert "#" + s[1..] == s;
  }

  /** The length check does not make the scan see six digits: a sixth
      character that is not a hex digit still parses, as a one-digit blue. */
  lemma StrictAcceptsShortBlue()
    ensures ParseHexStrict("12345G") == Some(RGBA(0x12, 0x34, 0x05, 255))
  {
    var s := "12345G";
    assert AllHex(s[..5]);
    assert !IsHexDigit(s[5]);
    StrictAcceptsIff(s);
  }

  // ---------------------------------------------------------------------
  // Properties of the lenient parser
  // ---------------------------------------------------------------------

  /** The lenient parser accepts exactly: after one optional '#', at least
      five characters of which the first five are hex digits. */
  lemma LenientAcceptsIff(hex: string)
    requires |hex| > 0
    ensures ParseHexLenient(hex).Some? <==>
      var s := StripHash(hex);
      |s| >= 5 && AllHex(s[..5])
    ensures ParseHexLenient(hex).Some? ==> ParseHexLenient(hex).value == ScannedColor(StripHash(hex))
  {
    ScanHexTripleSpec(StripHash(hex));
  }

  /** Six hex digits parse to their bytes whatever follows them, while the
      strict parser rejects anything longer than six. */
  lemma LenientIgnoresTail(digits: string, tail: string)
    requires |digits| == 6 && AllHex(digits)
    ensures ParseHexLenient(digits + tail) == Some(DigitsColor(digits))
    ensures ParseHexLenient("#" + digits + tail) == Some(DigitsColor(digits))
    ensures tail != [] ==> ParseHexStrict(digits + tail).None?
  {
    var s := digits + tail;
    assert s[..5] == digits[..5];
    assert s[5] == digits[5];
    assert StripHash("#" + digits + tail) == s;
    LenientAcceptsIff(s);
    LenientAcceptsIff("#" + digits + tail);
    Utf8LengthAppend(digits, tail);
    assert IsAscii(digits) by {
      forall i | 0 <= i < |digits| ensures digits[i] as int < 0x80 {
        assert IsHexDigit(digits[i]);
      }
    }
    Utf8LengthAscii(digits);
  }

  /** "FFFFFFFF" is white to the lenient parser and an error to the strict one. */
  lemma LenientAcceptsEightDigits()
    ensures ParseHexLenient("FFFFFFFF") == Some(White)
    ensures ParseHexStrict("FFFFFFFF").None?
  {
    assert "FFFFFFFF" == "FFFFFF" + "FF";
    assert AllHex("FFFFFF");
    LenientIgnoresTail("FFFFFF", "FF");
  }

  /** Parsing a formatted colour never falls back, whatever the fallback. */
  lemma ColorOrDefaultFormatted(c: Color, fallback: Color)
    ensures ParseColorOrDefault(FormatHex(c), fallback) == Opaque(c)
  {
    StrictFormatRoundTrip(c);
  }
}

=== FILE: countdowns.dfy ===
/** The request logic of the countdown handlers: the timer-type mapping onto
    the three schema values, the style-map to render-config builder, the
    end-time precedence, and the update maps of `UpdateCountdown` and
    `SaveExistingCountdown`. Storage, upload and rendering are left out; the
    functions here stop at what the handlers would hand to them. */
module Countdowns {
  import opened Wrappers
  import opened Colors
  import opened Clock
  import opened Render

  // ---------------------------------------------------------------------
  // Timer types
  // ---------------------------------------------------------------------

  /** The schema's countdown types: fixed (an event), on_send, on_open. */
  datatype CountdownType = Fixed | OnSend | OnOpen

  /** The values the schema's check constraint allows for `type`. */
  const AllowedTypes: set<string> := {"fixed", "on_send", "on_open"}

  function SchemaName(t: CountdownType): (s: string)
    ensures s in AllowedTypes
  {
    match t
    case Fixed => "fixed"
    case OnSend => "on_send"
    case OnOpen => "on_open"
  }

  /** The requested timer type: on_send and on_open by name, anything else
      (the empty string included) fixed. */
  function MapTimerType(timerType: string): (t: CountdownType)
    ensures timerType == "on_send" <==> t == OnSend
    ensures timerType == "on_open" <==> t == OnOpen
  {
    if timerType == "on_send" then OnSend
    else if timerType == "on_open" then OnOpen
    else Fixed
  }

  /** Mapping a schema name gives back its type, and a string survives the
      round trip exactly when it is one of the allowed schema values. */
  lemma TimerTypeRoundTrip(t: CountdownType, s: string)
    ensures MapTimerType(SchemaName(t)) == t
    ensures SchemaName(MapTimerType(s)) == s <==> s in AllowedTypes
  {
  }

  // ---------------------------------------------------------------------
  // buildGIFConfigFromStyle
  // ---------------------------------------------------------------------

  /** A value of a decoded JSON object (`interface{}`); numbers are float64
      in Go and reals here. */
  datatype Json = JNull | JBool(b: bool) | JNumber(n: real) | JString(s: string) | JArray(items: seq<Json>) | JObject(fields: map<string, Json>)

  type StyleMap = map<string, Json>

  /** The config used when the style map sets nothing: black on white,
      sizes 60 and 14, labels, separators and all four units shown. */
  const DefaultStyle: Style := Style(
    White, Black, "", DefaultNumberFontSize, true, "", DefaultLabelFontSize, Black, true, Black,
    true, true, true, true, false, false, 0)

  /** A colour key overrides only when it holds a non-empty string, and a
      string that does not parse keeps the current colour. */
  function ColorOverride(m: StyleMap, key: string, current: Color): Color {
    if key in m && m[key].JString? && m[key].s != "" then ParseColorOrDefault(m[key].s, current) else current
  }

  /** A font key overrides whenever it holds a string, even an empty one. */
  function FontOverride(m: StyleMap, key: string, current: string): string {
    if key in m && m[key].JString? then m[key].s else current
  }

  /** A size key overrides only with a positive number. */
  function SizeOverride(m: StyleMap, key: string, current: real): real {
    if key in m && m[key].JNumber? && m[key].n > 0.0 then m[key].n else current
  }

  /** A boolean key overrides only with a boolean. */
  function BoolOverride(m: StyleMap, key: string, current: bool): bool {
    if key in m && m[key].JBool? then m[key].b else current
  }

  /** Go's `int(v)` of a float64: truncation toward zero. */
  function Trunc(v: real): (r: int)
    ensures v >= 0.0 ==> r as real <= v < r as real + 1.0
    ensures v < 0.0 ==> r as real - 1.0 < v <= r as real
  {
    if v >= 0.0 then v.Floor else -((-v).Floor)
  }

  /** The corner radius overrides with any number, truncated. */
  function RadiusOverride(m: StyleMap, key: string, current: int): int {
    if key in m && m[key].JNumber? then Trunc(m[key].n) else current
  }

  /** `buildGIFConfigFromStyle`: the defaults, each overridden by its key
      when that key holds a value of the right type. A nil map gives the
      defaults. */
  function BuildStyle(style: Option<StyleMap>): (r: Style)
    ensures style.None? ==> r == DefaultStyle
    ensures r.numberFontSize > 0.0 && r.labelFontSize > 0.0
  {
    match style
    case None => DefaultStyle
    case Some(m) =>
      var d := DefaultStyle;
      Style(
        ColorOverride(m, "bg_color", d.background),
        ColorOverride(m, "number_color", d.textColor),
        FontOverride(m, "number_font", d.numberFontName),
        SizeOverride(m, "number_font_size", d.numberFontSize),
        BoolOverride(m, "show_labels", d.showLabels),
        FontOverride(m, "label_font", d.labelFontName),
        SizeOverride(m, "label_font_size", d.labelFontSize),
        ColorOverride(m, "label_color", d.labelColor),
        BoolOverride(m, "show_separators", d.showSeparators),
        ColorOverride(m, "separator_color", d.separatorColor),
        BoolOverride(m, "show_days", d.showDays),
        BoolOverride(m, "show_hours", d.showHours),
        BoolOverride(m, "show_minutes", d.showMinutes),
        BoolOverride(m, "show_seconds", d.showSeconds),
        BoolOverride(m, "transparent", d.transparent),
        BoolOverride(m, "rounded_corners", d.roundedCorners),
        RadiusOverride(m, "corner_radius", d.cornerRadius))
  }

  /** The keys the builder reads, grouped by the type it expects. */
  const ColorKeys: set<string> := {"bg_color", "number_color", "label_color", "separator_color"}
  const FontKeys: set<string> := {"number_font", "label_font"}
  const SizeKeys: set<string> := {"number_font_size", "label_font_size"}
  const BoolKeys: set<string> := {"show_labels", "show_separators", "show_days", "show_hours", "show_minutes", "show_seconds", "transparent", "rounded_corners"}
  const RadiusKey: string := "corner_radius"

  predicate IsStyleKey(k: string) {
    k in ColorKeys || k in FontKeys || k in SizeKeys || k in BoolKeys || k == RadiusKey
  }

  /** A value the builder ignores under key `k`: of the wrong type, an empty
      or unparseable colour, or a size that is not positive. */
  predicate Ineffective(k: string, v: Json) {
    && (k in ColorKeys ==> !(v.JString? && v.s != "" && ParseHexStrict(v.s).Some?))
    && (k in FontKeys ==> !v.JString?)
    && (k in SizeKeys ==> !(v.JNumber? && v.n > 0.0))
    && (k in BoolKeys ==> !v.JBool?)
    && (k == RadiusKey ==> !v.JNumber?)
  }

  /** A nil map and an empty map both give exactly the defaults. */
  lemma EmptyStyleIsDefault()
    ensures BuildStyle(None) == DefaultStyle
    ensures BuildStyle(Some(map[])) == DefaultStyle
  {
  }

  /** An entry the builder ignores can be dropped without changing the
      config: absent, mistyped and unparseable values all leave the default. */
  lemma IneffectiveEntryIgnored(m: StyleMap, k: string)
    requires k in m && Ineffective(k, m[k])
    ensures BuildStyle(Some(m)) == BuildStyle(Some(m - {k}))
  {
    var d := DefaultStyle;
    ColorDropped(m, k, "bg_color", d.background);
    ColorDropped(m, k, "number_color", d.textColor);
    ColorDropped(m, k, "label_color", d.labelColor);
    ColorDropped(m, k, "separator_color", d.separatorColor);
    OthersDropped(m, k);
  }

  /** Dropping an ineffective entry changes no font, size, flag or radius
      override. */
  lemma OthersDropped(m: StyleMap, k: string)
    requires k in m && Ineffective(k, m[k])
    ensures forall key, cur :: key in FontKeys ==> FontOverride(m - {k}, key, cur) == FontOverride(m, key, cur)
    ensures forall key, cur :: key in SizeKeys ==> SizeOverride(m - {k}, key, cur) == SizeOverride(m, key, cur)
    ensures forall key, cur :: key in BoolKeys ==> BoolOverride(m - {k}, key, cur) == BoolOverride(m, key, cur)
    ensures forall cur :: RadiusOverride(m - {k}, RadiusKey, cur) == RadiusOverride(m, RadiusKey, cur)
  {
  }

  /** Dropping an entry changes no colour override, unless it is a parseable
      colour under that very key. */
  lemma ColorDropped(m: StyleMap, k: string, key: string, current: Color)
    requires k in m && key in ColorKeys && Ineffective(k, m[k])
    ensures ColorOverride(m - {k}, key, current) == ColorOverride(m, key, current)
  {
    if key == k && m[k].JString? && m[k].s != "" {
      assert ParseHexStrict(m[k].s).None?;
    }
  }

  /** Keys the builder does not read never matter. */
  lemma UnknownKeysIgnored(m: StyleMap, k: string, v: Json)
    requires !IsStyleKey(k)
    ensures BuildStyle(Some(m[k := v])) == BuildStyle(Some(m))
  {
  }

  /** The entry of `m` under `k` alone, or nothing when `k` is absent. */
  function Only(m: StyleMap, k: string): (o: StyleMap)
    ensures o.Keys <= {k}
    ensures k in o <==> k in m
    ensures k in o ==> o[k] == m[k]
  {
    if k in m then map[k := m[k]] else map[]
  }

  /** Every override reads its own key and nothing else. */
  lemma OverridesAreLocal(m: StyleMap, key: string)
    ensures forall c :: ColorOverride(m, key, c) == ColorOverride(Only(m, key), key, c)
    ensures forall f :: FontOverride(m, key, f) == FontOverride(Only(m, key), key, f)
    ensures forall z :: SizeOverride(m, key, z) == SizeOverride(Only(m, key), key, z)
    ensures forall b :: BoolOverride(m, key, b) == BoolOverride(Only(m, key), key, b)
    ensures forall n :: RadiusOverride(m, key, n) == RadiusOverride(Only(m, key), key, n)
  {
  }

  /** Each colour is built from its own key alone: the rest of the map,
      present or absent, well-typed or not, never affects it. */
  lemma ColorsAreLocal(m: StyleMap)
    ensures var r := BuildStyle(Some(m));
      && r.background == BuildStyle(Some(Only(m, "bg_color"))).background
      && r.textColor == BuildStyle(Some(Only(m, "number_color"))).textColor
      && r.labelColor == BuildStyle(Some(Only(m, "label_color"))).labelColor
      && r.separatorColor == BuildStyle(Some(Only(m, "separator_color"))).separatorColor
  {
    OverridesAreLocal(m, "bg_color");
    OverridesAreLocal(m, "number_color");
    OverridesAreLocal(m, "label_color");
    OverridesAreLocal(m, "separator_color");
  }

  /** Each font, size and the radius are built from their own key alone. */
  lemma FontsAndSizesAreLocal(m: StyleMap)
    ensures var r := BuildStyle(Some(m));
      && r.numberFontName == BuildStyle(Some(Only(m, "number_font"))).numberFontName
      && r.labelFontName == BuildStyle(Some(Only(m, "label_font"))).labelFontName
      && r.numberFontSize == BuildStyle(Some(Only(m, "number_font_size"))).numberFontSize
      && r.labelFontSize == BuildStyle(Some(Only(m, "label_font_size"))).labelFontSize
      && r.cornerRadius == BuildStyle(Some(Only(m, "corner_radius"))).cornerRadius
  {
    OverridesAreLocal(m, "number_font");
    OverridesAreLocal(m, "label_font");
    OverridesAreLocal(m, "number_font_size");
    OverridesAreLocal(m, "label_font_size");
    OverridesAreLocal(m, "corner_radius");
  }

  /** Each flag is built from its own key alone: `show_days` never hides
      hours, and so on. */
  lemma FlagsAreLocal(m: StyleMap)
    ensures var r := BuildStyle(Some(m));
      && r.showLabels == BuildStyle(Some(Only(m, "show_labels"))).showLabels
      && r.showSeparators == BuildStyle(Some(Only(m, "show_separators"))).showSeparators
      && r.showDays == BuildStyle(Some(Only(m, "show_days"))).showDays
      && r.showHours == BuildStyle(Some(Only(m, "show_hours"))).showHours
      && r.showMinutes == BuildStyle(Some(Only(m, "show_minutes"))).showMinutes
      && r.showSeconds == BuildStyle(Some(Only(m, "show_seconds"))).showSeconds
      && r.transparent == BuildStyle(Some(Only(m, "transparent"))).transparent
      && r.roundedCorners == BuildStyle(Some(Only(m, "rounded_corners"))).roundedCorners
  {
    OverridesAreLocal(m, "show_labels");
    OverridesAreLocal(m, "show_separators");
    OverridesAreLocal(m, "show_days");
    OverridesAreLocal(m, "show_hours");
    OverridesAreLocal(m, "show_minutes");
    OverridesAreLocal(m, "show_seconds");
    OverridesAreLocal(m, "transparent");
    OverridesAreLocal(m, "rounded_corners");
  }

  /** Unlike the preview, the label colour does not follow the number colour:
      setting only the number colour leaves labels black. */
  lemma LabelColorDoesNotFollowNumberColor(c: Color)
    ensures
      var st := BuildStyle(Some(map["number_color" := JString(FormatHex(c))]));
      st.textColor == Opaque(c) && st.labelColor == Black && st.separatorColor == Black
  {
    var m := map["number_color" := JString(FormatHex(c))];
    ColorOverrideFormatted(m, "number_color", c, Black);
    assert "label_color" !in m && "separator_color" !in m;
  }

  /** The style map a config is saved as: every colour as `#rrggbb`, sizes
      and the radius as numbers, flags as booleans. */
  function EncodeStyle(st: Style): (m: StyleMap)
    ensures m.Keys == StyleKeyNames
  {
    map k | k in StyleKeyNames :: EncodeEntry(st, k)
  }

  /** Every key the builder reads. */
  const StyleKeyNames: set<string> := ColorKeys + FontKeys + SizeKeys + BoolKeys + {RadiusKey}

  /** The value `EncodeStyle` stores under key `k`. */
  function EncodeEntry(st: Style, k: string): Json {
    if k == "bg_color" then JString(FormatHex(st.background))
    else if k == "number_color" then JString(FormatHex(st.textColor))
    else if k == "label_color" then JString(FormatHex(st.labelColor))
    else if k == "separator_color" then JString(FormatHex(st.separatorColor))
    else if k == "number_font" then JString(st.numberFontName)
    else if k == "label_font" then JString(st.labelFontName)
    else if k == "number_font_size" then JNumber(st.numberFontSize)
    else if k == "label_font_size" then JNumber(st.labelFontSize)
    else if k == "show_labels" then JBool(st.showLabels)
    else if k == "show_separators" then JBool(st.showSeparators)
    else if k == "show_days" then JBool(st.showDays)
    else if k == "show_hours" then JBool(st.showHours)
    else if k == "show_minutes" then JBool(st.showMinutes)
    else if k == "show_seconds" then JBool(st.showSeconds)
    else if k == "transparent" then JBool(st.transparent)
    else if k == "rounded_corners" then JBool(st.roundedCorners)
    else JNumber(st.cornerRadius as real)
  }

  /** Configs the builder can produce: opaque colours and positive sizes. */
  predicate Buildable(st: Style) {
    && st.background.a == 255 && st.textColor.a == 255
    && st.labelColor.a == 255 && st.separatorColor.a == 255
    && st.numberFontSize > 0.0 && st.labelFontSize > 0.0
  }

  lemma EncodedColors(st: Style)
    ensures var m := EncodeStyle(st);
      && m["bg_color"] == JString(FormatHex(st.background))
      && m["number_color"] == JString(FormatHex(st.textColor))
      && m["label_color"] == JString(FormatHex(st.labelColor))
      && m["separator_color"] == JString(FormatHex(st.separatorColor))
  {
  }

  lemma EncodedSizesAndFonts(st: Style)
    ensures var m := EncodeStyle(st);
      && m["number_font"] == JString(st.numberFontName)
      && m["number_font_size"] == JNumber(st.numberFontSize)
      && m["label_font"] == JString(st.labelFontName)
      && m["label_font_size"] == JNumber(st.labelFontSize)
      && m["corner_radius"] == JNumber(st.cornerRadius as real)
  {
  }

  lemma EncodedFlags(st: Style)
    ensures var m := EncodeStyle(st);
      && m["show_labels"] == JBool(st.showLabels)
      && m["show_separators"] == JBool(st.showSeparators)
      && m["show_days"] == JBool(st.showDays)
      && m["show_hours"] == JBool(st.showHours)
      && m["show_minutes"] == JBool(st.showMinutes)
      && m["show_seconds"] == JBool(st.showSeconds)
      && m["transparent"] == JBool(st.transparent)
      && m["rounded_corners"] == JBool(st.roundedCorners)
  {
  }

  /** Every config the builder can produce is rebuilt exactly from its
      encoding, so no buildable config is out of reach of a style map. */
  lemma StyleRoundTrip(st: Style)
    requires Buildable(st)
    ensures BuildStyle(Some(EncodeStyle(st))) == st
  {
    var m := EncodeStyle(st);
    EncodedColors(st);
    EncodedSizesAndFonts(st);
    EncodedFlags(st);
    BuiltColors(m, st);
    BuiltFontsAndSizes(m, st);
    BuiltFlags(m, st);
  }

  /** A map holding a buildable config's colours, formatted, under the
      colour keys gives back those colours. */
  lemma BuiltColors(m: StyleMap, st: Style)
    requires Buildable(st)
    requires && "bg_color" in m && m["bg_color"] == JString(FormatHex(st.background))
             && "number_color" in m && m["number_color"] == JString(FormatHex(st.textColor))
             && "label_color" in m && m["label_color"] == JString(FormatHex(st.labelColor))
             && "separator_color" in m && m["separator_color"] == JString(FormatHex(st.separatorColor))
    ensures var r := BuildStyle(Some(m));
      && r.background == st.background && r.textColor == st.textColor
      && r.labelColor == st.labelColor && r.separatorColor == st.separatorColor
  {
    var d := DefaultStyle;
    ColorOverrideFormatted(m, "bg_color", st.background, d.background);
    ColorOverrideFormatted(m, "number_color", st.textColor, d.textColor);
    ColorOverrideFormatted(m, "label_color", st.labelColor, d.labelColor);
    ColorOverrideFormatted(m, "separator_color", st.separatorColor, d.separatorColor);
  }

  /** Fonts, positive sizes and the radius come back from their keys. */
  lemma BuiltFontsAndSizes(m: StyleMap, st: Style)
    requires st.numberFontSize > 0.0 && st.labelFontSize > 0.0
    requires && "number_font" in m && m["number_font"] == JString(st.numberFontName)
             && "number_font_size" in m && m["number_font_size"] == JNumber(st.numberFontSize)
             && "label_font" in m && m["label_font"] == JString(st.labelFontName)
             && "label_font_size" in m && m["label_font_size"] == JNumber(st.labelFontSize)
             && "corner_radius" in m && m["corner_radius"] == JNumber(st.cornerRadius as real)
    ensures var r := BuildStyle(Some(m));
      && r.numberFontName == st.numberFontName && r.numberFontSize == st.numberFontSize
      && r.labelFontName == st.labelFontName && r.labelFontSize == st.labelFontSize
      && r.cornerRadius == st.cornerRadius
  {
  }

  /** Every flag comes back from its key. */
  lemma BuiltFlags(m: StyleMap, st: Style)
    requires && "show_labels" in m && m["show_labels"] == JBool(st.showLabels)
             && "show_separators" in m && m["show_separators"] == JBool(st.showSeparators)
             && "show_days" in m && m["show_days"] == JBool(st.showDays)
             && "show_hours" in m && m["show_hours"] == JBool(st.showHours)
             && "show_minutes" in m && m["show_minutes"] == JBool(st.showMinutes)
             && "show_seconds" in m && m["show_seconds"] == JBool(st.showSeconds)
             && "transparent" in m && m["transparent"] == JBool(st.transparent)
             && "rounded_corners" in m && m["rounded_corners"] == JBool(st.roundedCorners)
    ensures var r := BuildStyle(Some(m));
      && r.showLabels == st.showLabels && r.showSeparators == st.showSeparators
      && r.showDays == st.showDays && r.showHours == st.showHours
      && r.showMinutes == st.showMinutes && r.showSeconds == st.showSeconds
      && r.transparent == st.transparent && r.roundedCorners == st.roundedCorners
  {
  }

  /** A colour key holding a formatted colour overrides with that colour. */
  lemma ColorOverrideFormatted(m: StyleMap, key: string, c: Color, current: Color)
    requires key in m && m[key] == JString(FormatHex(c))
    ensures ColorOverride(m, key, current) == Opaque(c)
  {
    ColorOrDefaultFormatted(c, current);
  }

  // ---------------------------------------------------------------------
  // End times
  // ---------------------------------------------------------------------

  /** The end time a request names; an empty or malformed one is absent. */
  function ParsedEndTime(endTime: string, parseTime: string -> Option<Instant>): (r: Option<Instant>)
    ensures endTime == "" ==> r.None?
    ensures endTime != "" ==> r == parseTime(endTime)
  {
    if endTime == "" then None else parseTime(endTime)
  }

  /** The end time the countdown is rendered to: a parsed end time first,
      then now plus the duration in seconds, then a day from now. */
  function SelectEndTime(parsed: Option<Instant>, duration: Option<int>, now: Instant): (t: Instant)
    ensures parsed.Some? ==> t == parsed.value
    ensures parsed.None? && duration.Some? ==> t == now + duration.value * Second
    ensures parsed.None? && duration.None? ==> t == now + DefaultSpan
  {
    if parsed.Some? then parsed.value
    else if duration.Some? then now + duration.value * Second
    else now + DefaultSpan
  }

  /** A malformed end time is silently treated as absent. */
  lemma MalformedEndTimeIsAbsent(endTime: string, duration: Option<int>, now: Instant, parseTime: string -> Option<Instant>)
    requires parseTime(endTime).None?
    ensures SelectEndTime(ParsedEndTime(endTime, parseTime), duration, now)
         == SelectEndTime(ParsedEndTime("", parseTime), duration, now)
  {
  }

  /** The duration is used as given, with no positivity check: a negative
      one puts the end in the past. */
  lemma NegativeDurationEndsInPast(duration: int, now: Instant)
    requires duration < 0
    ensures SelectEndTime(None, Some(duration), now) < now
  {
  }

  // ---------------------------------------------------------------------
  // CreateCountdown and SaveExistingCountdown
  // ---------------------------------------------------------------------

  datatype CreateCountdownRequest = CreateCountdownRequest(
    name: string,
    timerType: string,
    endTime: string,
    duration: Option<int>,
    styleConfig: Option<StyleMap>)

  datatype CountdownError = NameRequired | NoFields

  /** What `CreateCountdown` stores (name, type, end time, duration) and the
      config it renders the preview from. */
  datatype CreatePlan = CreatePlan(
    name: string,
    countdownType: CountdownType,
    endTime: Option<Instant>,
    duration: Option<int>,
    render: RenderConfig)

  function PlanCreate(req: CreateCountdownRequest, now: Instant, parseTime: string -> Option<Instant>): (r: Result<CreatePlan, CountdownError>)
    ensures r.Err? <==> req.name == ""
    ensures r.Ok? ==> r.value.name == req.name && r.value.duration == req.duration
    ensures r.Ok? ==> r.value.countdownType == MapTimerType(req.timerType)
    ensures r.Ok? ==> (r.value.endTime.Some? <==> req.endTime != "" && parseTime(req.endTime).Some?)
    ensures r.Ok? && r.value.endTime.Some? ==> r.value.endTime.value == parseTime(req.endTime).value
    ensures r.Ok? && r.value.endTime.Some? ==> r.value.render.endTime == r.value.endTime.value
    ensures r.Ok? && r.value.endTime.None? && req.duration.Some? ==>
      r.value.render.endTime == now + req.duration.value * Second
    ensures r.Ok? && r.value.endTime.None? && req.duration.None? ==> r.value.render.endTime == now + DefaultSpan
    ensures r.Ok? ==> r.value.render.style == BuildStyle(req.styleConfig) && r.value.render.expiry == NoExpiry
  {
    if req.name == "" then Err(NameRequired)
    else
      var endTime := ParsedEndTime(req.endTime, parseTime);
      var render := RenderConfig(SelectEndTime(endTime, req.duration, now), BuildStyle(req.styleConfig), NoExpiry);
      Ok(CreatePlan(req.name, MapTimerType(req.timerType), endTime, req.duration, render))
  }

  /** The countdown columns the handlers update. */
  datatype CountdownColumn = NameColumn | PreviewUrlColumn | ViewsColumn | SoftDeletedColumn | TypeColumn | EndTimeColumn | DurationColumn

  /** A value in an update map. */
  datatype FieldValue = TextValue(text: string) | IntValue(i: int) | BoolValue(flag: bool) | InstantValue(t: Instant) | TypeValue(countdownType: CountdownType)

  datatype SaveCountdownRequest = SaveCountdownRequest(
    name: string,
    timerType: string,
    endTime: string,
    duration: Option<int>,
    styleConfig: Option<StyleMap>)

  /** `SaveExistingCountdown`'s update map: the type always; the name only
      when non-empty; the end time only when it parses; the duration only
      when given. */
  function SaveUpdates(req: SaveCountdownRequest, parseTime: string -> Option<Instant>): (m: map<CountdownColumn, FieldValue>)
    ensures TypeColumn in m && m[TypeColumn] == TypeValue(MapTimerType(req.timerType))
    ensures NameColumn in m <==> req.name != ""
    ensures NameColumn in m ==> m[NameColumn] == TextValue(req.name)
    ensures EndTimeColumn in m <==> ParsedEndTime(req.endTime, parseTime).Some?
    ensures EndTimeColumn in m ==> m[EndTimeColumn] == InstantValue(ParsedEndTime(req.endTime, parseTime).value)
    ensures DurationColumn in m <==> req.duration.Some?
    ensures DurationColumn in m ==> m[DurationColumn] == IntValue(req.duration.value)
    ensures m.Keys <= {TypeColumn, NameColumn, EndTimeColumn, DurationColumn}
  {
    var endTime := ParsedEndTime(req.endTime, parseTime);
    var m0 := map[TypeColumn := TypeValue(MapTimerType(req.timerType))];
    var m1 := if req.name != "" then m0[NameColumn := TextValue(req.name)] else m0;
    var m2 := if endTime.Some? then m1[EndTimeColumn := InstantValue(endTime.value)] else m1;
    if req.duration.Some? then m2[DurationColumn := IntValue(req.duration.value)] else m2
  }

  /** The update map and the config the save re-renders from. */
  datatype SavePlan = SavePlan(updates: map<CountdownColumn, FieldValue>, render: RenderConfig)

  function PlanSave(req: SaveCountdownRequest, now: Instant, parseTime: string -> Option<Instant>): (p: SavePlan)
    ensures p.updates == SaveUpdates(req, parseTime)
    ensures EndTimeColumn in p.updates ==> p.updates[EndTimeColumn] == InstantValue(p.render.endTime)
    ensures EndTimeColumn !in p.updates && req.duration.Some? ==> p.render.endTime == now + req.duration.value * Second
    ensures EndTimeColumn !in p.updates && req.duration.None? ==> p.render.endTime == now + DefaultSpan
    ensures p.render.style == BuildStyle(req.styleConfig) && p.render.expiry == NoExpiry
  {
    var endTime := ParsedEndTime(req.endTime, parseTime);
    SavePlan(
      SaveUpdates(req, parseTime),
      RenderConfig(SelectEndTime(endTime, req.duration, now), BuildStyle(req.styleConfig), NoExpiry))
  }

  /** A save never yields an empty update and never erases the name. */
  lemma SaveNeverEmpty(req: SaveCountdownRequest, parseTime: string -> Option<Instant>)
    ensures SaveUpdates(req, parseTime) != map[]
    ensures SaveUpdates(req, parseTime).Keys != {}
    ensures NameColumn in SaveUpdates(req, parseTime) ==> SaveUpdates(req, parseTime)[NameColumn] != TextValue("")
  {
  }

  // ---------------------------------------------------------------------
  // UpdateCountdown
  // ---------------------------------------------------------------------

  /** Each field is None when the JSON body omitted it (a nil pointer). */
  datatype UpdateCountdownRequest = UpdateCountdownRequest(
    name: Option<string>,
    previewUrl: Option<string>,
    views: Option<int>,
    isSoftDeleted: Option<bool>)

  function ProvidedColumns(req: UpdateCountdownRequest): set<CountdownColumn> {
    (if req.name.Some? then {NameColumn} else {}) +
    (if req.previewUrl.Some? then {PreviewUrlColumn} else {}) +
    (if req.views.Some? then {ViewsColumn} else {}) +
    (if req.isSoftDeleted.Some? then {SoftDeletedColumn} else {})
  }

  /** `UpdateCountdown`'s update map: exactly the provided fields, with no
      further checks (an empty name is allowed); nothing provided is refused. */
  function BuildCountdownUpdates(req: UpdateCountdownRequest): (r: Result<map<CountdownColumn, FieldValue>, CountdownError>)
    ensures r.Err? <==> ProvidedColumns(req) == {}
    ensures r.Err? ==> r.error == NoFields
    ensures r.Ok? ==> r.value.Keys == ProvidedColumns(req)
  {
    var m0: map<CountdownColumn, FieldValue> := map[];
    var m1 := if req.name.Some? then m0[NameColumn := TextValue(req.name.value)] else m0;
    var m2 := if req.previewUrl.Some? then m1[PreviewUrlColumn := TextValue(req.previewUrl.value)] else m1;
    var m3 := if req.views.Some? then m2[ViewsColumn := IntValue(req.views.value)] else m2;
    var m4 := if req.isSoftDeleted.Some? then m3[SoftDeletedColumn := BoolValue(req.isSoftDeleted.value)] else m3;
    if m4.Keys == {} then Err(NoFields) else Ok(m4)
  }

  function TextAt(m: map<CountdownColumn, FieldValue>, c: CountdownColumn): Option<string> {
    if c in m && m[c].TextValue? then Some(m[c].text) else None
  }

  /** Reads an update map back as the request that produced it. */
  function DecodeCountdownUpdates(m: map<CountdownColumn, FieldValue>): UpdateCountdownRequest {
    UpdateCountdownRequest(
      TextAt(m, NameColumn),
      TextAt(m, PreviewUrlColumn),
      if ViewsColumn in m && m[ViewsColumn].IntValue? then Some(m[ViewsColumn].i) else None,
      if SoftDeletedColumn in m && m[SoftDeletedColumn].BoolValue? then Some(m[SoftDeletedColumn].flag) else None)
  }

  /** The update map holds exactly the provided values, losing none. */
  lemma CountdownUpdatesRoundTrip(req: UpdateCountdownRequest)
    requires BuildCountdownUpdates(req).Ok?
    ensures DecodeCountdownUpdates(BuildCountdownUpdates(req).value) == req
  {
  }
}

=== FILE: fonts.dfy ===
/** The font registry of the generator package: a name-to-font cache that
    starts with the Arial fallback and loads further fonts from the file
    table on first use. Reading and parsing a font file is the oracle
    `load` (a path to the parsed font, or None when either step fails); the
    locks are left out and the registry is threaded through as a value. */
module Fonts {
  import opened Wrappers

  /** A parsed TrueType font; only its identity matters here. */
  datatype Font = Font(data: seq<int>)

  const FallbackName: string := "Arial"
  const FallbackPath: string := "fonts/Arial.ttf"

  /** Font names the frontend may ask for, with their font files. */
  const FontFileMap: map<string, string> := map[FallbackName := FallbackPath]

  /** The cache of parsed fonts and the fallback font. */
  datatype FontRegistry = FontRegistry(fonts: map<string, Font>, fallback: Font)

  /** `initFontRegistry`: load the fallback font into an empty registry.
      None stands for the startup panic when it cannot be read or parsed. */
  function InitFontRegistry(load: string -> Option<Font>): (r: Option<FontRegistry>)
    ensures r.None? <==> load(FallbackPath).None?
    ensures r.Some? ==> r.value.fallback == load(FallbackPath).value
    ensures r.Some? ==> r.value.fonts.Keys == {FallbackName} && r.value.fonts[FallbackName] == r.value.fallback
  {
    match load(FallbackPath)
    case None => None
    case Some(f) => Some(FontRegistry(map[FallbackName := f], f))
  }

  /** A lookup's answer and the registry after it. */
  datatype FontLookup = FontLookup(font: Font, registry: FontRegistry)

  /** `GetFont`: the empty name and unknown names give the fallback; a cached
      name gives its font; a name in the file table is loaded, cached and
      returned, or gives the fallback and caches nothing when loading fails. */
  function GetFont(reg: FontRegistry, name: string, load: string -> Option<Font>): (r: FontLookup)
    ensures name == "" ==> r == FontLookup(reg.fallback, reg)
    ensures name != "" && name in reg.fonts ==> r == FontLookup(reg.fonts[name], reg)
    ensures name !in reg.fonts && name !in FontFileMap ==> r == FontLookup(reg.fallback, reg)
    ensures name != "" && name !in reg.fonts && name in FontFileMap && load(FontFileMap[name]).None? ==>
      r == FontLookup(reg.fallback, reg)
    ensures name != "" && name !in reg.fonts && name in FontFileMap && load(FontFileMap[name]).Some? ==>
      r.font == load(FontFileMap[name]).value && r.registry.fonts == reg.fonts[name := r.font]
    ensures r.registry.fallback == reg.fallback
  {
    if name == "" then FontLookup(reg.fallback, reg)
    else if name in reg.fonts then FontLookup(reg.fonts[name], reg)
    else if name in FontFileMap then
      match load(FontFileMap[name])
      case None => FontLookup(reg.fallback, reg)
      case Some(f) => FontLookup(f, reg.(fonts := reg.fonts[name := f]))
    else FontLookup(reg.fallback, reg)
  }

  /** A registry whose cache agrees with the files: every cached name is in
      the file table and holds what loading its file gives, and the fallback
      is cached under its own name. */
  ghost predicate Coherent(reg: FontRegistry, load: string -> Option<Font>) {
    && (forall n :: n in reg.fonts ==> n in FontFileMap && load(FontFileMap[n]) == Some(reg.fonts[n]))
    && FallbackName in reg.fonts && reg.fonts[FallbackName] == reg.fallback
  }

  /** The font a lookup would give with no cache at all. */
  function UncachedFont(fallback: Font, name: string, load: string -> Option<Font>): Font {
    if name != "" && name in FontFileMap && load(FontFileMap[name]).Some? then load(FontFileMap[name]).value
    else fallback
  }

  /** The registry only grows: no entry is removed or replaced, and at most
      the looked-up name is added. */
  lemma RegistryOnlyGrows(reg: FontRegistry, name: string, load: string -> Option<Font>)
    ensures var r := GetFont(reg, name, load).registry;
      && reg.fonts.Keys <= r.fonts.Keys <= reg.fonts.Keys + {name}
      && (forall n :: n in reg.fonts ==> r.fonts[n] == reg.fonts[n])
  {
  }

  /** Asking twice gives the same font, and the second call changes nothing. */
  lemma GetFontIdempotent(reg: FontRegistry, name: string, load: string -> Option<Font>)
    ensures var first := GetFont(reg, name, load);
      var second := GetFont(first.registry, name, load);
      second.font == first.font && second.registry == first.registry
  {
  }

  /** A successful initialisation gives a coherent registry. */
  lemma InitCoherent(load: string -> Option<Font>)
    requires InitFontRegistry(load).Some?
    ensures Coherent(InitFontRegistry(load).value, load)
  {
  }

  /** Lookups keep the registry coherent, and on a coherent registry the
      cache is invisible: the answer is the one an uncached lookup gives. */
  lemma GetFontMatchesUncached(reg: FontRegistry, name: string, load: string -> Option<Font>)
    requires Coherent(reg, load)
    ensures Coherent(GetFont(reg, name, load).registry, load)
    ensures GetFont(reg, name, load).font == UncachedFont(reg.fallback, name, load)
  {
  }

  /** With Arial the only font in the file table, an initialised registry
      never changes: Arial is already cached and every other name falls
      back without loading. */
  lemma InitialisedRegistryIsFixed(reg: FontRegistry, name: string, load: string -> Option<Font>)
    requires Coherent(reg, load)
    ensures GetFont(reg, name, load).registry == reg
  {
  }

  /** A run of lookups, in order, threading the registry through: each
      answer is the uncached one and the registry ends as it began. */
  method GetFonts(reg: FontRegistry, names: seq<string>, load: string -> Option<Font>)
    returns (fonts: seq<Font>, final: FontRegistry)
    requires Coherent(reg, load)
    ensures |fonts| == |names|
    ensures forall i :: 0 <= i < |names| ==> fonts[i] == UncachedFont(reg.fallback, names[i], load)
    ensures final == reg
  {
    fonts := [];
    final := reg;
    var k := 0;
    while k < |names|
      invariant 0 <= k <= |names|
      invariant |fonts| == k
      invariant final == reg
      invariant forall i :: 0 <= i < k ==> fonts[i] == UncachedFont(reg.fallback, names[i], load)
    {
      var r := GetFont(final, names[k], load);
      GetFontMatchesUncached(final, names[k], load);
      InitialisedRegistryIsFixed(final, names[k], load);
      fonts := fonts + [r.font];
      final := r.registry;
      k := k + 1;
    }
  }
}

=== FILE: generate_handler.dfy ===
/** The public `Generate` handler: it turns a request into a fixed-size
    `gif.Config` and hands it to the generator. JSON decoding and the HTTP
    response are left out; RFC 3339 parsing is the oracle `parseTime`. */
module GenerateHandler {
  import opened Wrappers
  import opened Colors
  import opened Clock
  import opened Generator

  /** Canvas size the handler always uses. */
  const CanvasWidth: int := 534
  const CanvasHeight: int := 143

  /** `GenerateRequest`; the template's font size and layout are decoded but
      never read. */
  datatype GenerateRequest = GenerateRequest(
    endTime: string,
    fontSize: int,
    layout: string,
    background: string,
    text: string)

  datatype GenerateError = InvalidEndTime | InvalidBackground | InvalidText

  /** How a request ends before generation: a 400 response, or the panic of
      the lenient parser indexing an empty colour string. */
  datatype Rejection = BadRequest(reason: GenerateError) | Panicked

  /** The config a request that passes every check is generated from: the
      parsed end time and colours on the fixed canvas. */
  function ParsedConfig(req: GenerateRequest, parseTime: string -> Option<Instant>): GifConfig
    requires parseTime(req.endTime).Some?
    requires req.background != "" && ParseHexLenient(req.background).Some?
    requires req.text != "" && ParseHexLenient(req.text).Some?
  {
    GifConfig(parseTime(req.endTime).value, ParseHexLenient(req.background).value, ParseHexLenient(req.text).value,
              CanvasWidth, CanvasHeight)
  }

  /** The handler's checks, in source order, up to the config it would pass
      to the generator. */
  function PrepareGenerate(req: GenerateRequest, parseTime: string -> Option<Instant>): (r: Result<GifConfig, Rejection>)
    ensures parseTime(req.endTime).None? ==> r == Err(BadRequest(InvalidEndTime))
    ensures r.Ok? <==>
      parseTime(req.endTime).Some? &&
      req.background != "" && ParseHexLenient(req.background).Some? &&
      req.text != "" && ParseHexLenient(req.text).Some?
    ensures parseTime(req.endTime).Some? && req.background != "" && ParseHexLenient(req.background).None? ==>
      r == Err(BadRequest(InvalidBackground))
    ensures (parseTime(req.endTime).Some? && req.background != "" && ParseHexLenient(req.background).Some? &&
             req.text != "" && ParseHexLenient(req.text).None?) ==> r == Err(BadRequest(InvalidText))
    ensures r.Ok? ==> r.value == ParsedConfig(req, parseTime)
  {
    match parseTime(req.endTime)
    case None => Err(BadRequest(InvalidEndTime))
    case Some(endTime) =>
      if req.background == "" then Err(Panicked)
      else
        match ParseHexLenient(req.background)
        case None => Err(BadRequest(InvalidBackground))
        case Some(bg) =>
          if req.text == "" then Err(Panicked)
          else
            match ParseHexLenient(req.text)
            case None => Err(BadRequest(InvalidText))
            case Some(fg) => Ok(GifConfig(endTime, bg, fg, CanvasWidth, CanvasHeight))
  }

  /** The whole handler: any rejection returns before generation; otherwise
      the GIF of the sixty 534x143 frames counting down to the parsed end
      time, in the parsed colours. `clock(i)` is the instant the generator's
      goroutine for frame `i` reads the wall clock. */
  method ServeGenerate(req: GenerateRequest, clock: nat -> Instant, parseTime: string -> Option<Instant>)
    returns (r: Result<Animation, Rejection>)
    ensures r.Err? <==> PrepareGenerate(req, parseTime).Err?
    ensures r.Err? ==> r.error == PrepareGenerate(req, parseTime).error
    ensures r.Ok? ==> |r.value.frames| == FrameCount && |r.value.delays| == FrameCount
    ensures r.Ok? ==> forall i :: 0 <= i < FrameCount ==>
      r.value.frames[i] == Frame(CanvasWidth, CanvasHeight, FrameText(ParsedConfig(req, parseTime), clock(i), i))
    ensures r.Ok? ==>
      r.value.palette == CreatePalette(ParseHexLenient(req.background).value, ParseHexLenient(req.text).value)
    ensures r.Ok? ==> r.value.loopCount == 0 && forall i :: 0 <= i < FrameCount ==> r.value.delays[i] == FrameDelay
  {
    var prepared := PrepareGenerate(req, parseTime);
    if prepared.Err? {
      return Err(prepared.error);
    }
    var anim := Generate(prepared.value, clock);
    return Ok(anim);
  }

  /** An empty colour string panics only after the end time has parsed, and
      an empty text colour only after the background has parsed. */
  lemma PanicOnlyAfterEarlierChecks(req: GenerateRequest, parseTime: string -> Option<Instant>)
    ensures PrepareGenerate(req, parseTime) == Err(Panicked) <==>
      parseTime(req.endTime).Some? &&
      (req.background == "" ||
       (ParseHexLenient(req.background).Some? && req.text == ""))
  {
  }

  /** The template's font size and layout do not affect the result. */
  lemma TemplateIgnored(req: GenerateRequest, fontSize: int, layout: string, parseTime: string -> Option<Instant>)
    ensures PrepareGenerate(req.(fontSize := fontSize, layout := layout), parseTime) == PrepareGenerate(req, parseTime)
  {
  }

  /** Colours with anything after their first six digits are accepted here,
      where the preview handlers would reject them: the trailing characters
      are ignored. */
  lemma LongColoursAccepted(req: GenerateRequest, parseTime: string -> Option<Instant>,
                            bg: string, bgTail: string, text: string, textTail: string)
    requires parseTime(req.endTime).Some?
    requires |bg| == 6 && AllHex(bg) && |text| == 6 && AllHex(text)
    ensures PrepareGenerate(req.(background := bg + bgTail, text := "#" + text + textTail), parseTime)
         == Ok(GifConfig(parseTime(req.endTime).value, DigitsColor(bg), DigitsColor(text), CanvasWidth, CanvasHeight))
  {
    LenientIgnoresTail(bg, bgTail);
    LenientIgnoresTail(text, textTail);
  }
}

=== FILE: generator.dfy ===
/** The 60-frame countdown animation of `gif.Generate` and its 32-colour
    palette. Rasterising the text and encoding the GIF are not modelled: a
    frame is the canvas size plus the text drawn centred on it. */
module Generator {
  import opened Colors
  import opened Clock

  /** Frames in one animation: one per second. */
  const FrameCount: nat := 60

  /** Delay of every frame, in hundredths of a second. */
  const FrameDelay: int := 100

  /** Entries in the palette built from the two colours. */
  const PaletteSize: nat := 32

  /** The fields of `gif.Config` that `Generate` reads. */
  datatype GifConfig = GifConfig(endTime: Instant, background: Color, textColor: Color, width: int, height: int)

  /** One paletted frame: its bounds and the countdown text drawn on it. */
  datatype Frame = Frame(width: int, height: int, text: string)

  /** What `gif.EncodeAll` is handed: frames, per-frame delays, the loop
      count (0 is forever) and the palette every frame shares. */
  datatype Animation = Animation(frames: seq<Frame>, delays: seq<int>, loopCount: int, palette: seq<Color>)

  function Min(a: int, b: int): int {
    if a <= b then a else b
  }

  function Max(a: int, b: int): int {
    if a <= b then b else a
  }

  /** Channel `i` of 31 steps from `from` to `to`: the exact value of
      `from * (1 - i/31) + to * (i/31)`, truncated. */
  function Blend(from: Byte, to: Byte, i: nat): (v: Byte)
    requires i <= 31
    ensures Min(from, to) <= v <= Max(from, to)
    ensures i == 0 ==> v == from
    ensures i == 31 ==> v == to
  {
    BlendBounds(from, to, i);
    (from * (31 - i) + to * i) / 31
  }

  lemma BlendBounds(from: Byte, to: Byte, i: nat)
    requires i <= 31
    ensures 31 * Min(from, to) <= from * (31 - i) + to * i <= 31 * Max(from, to)
  {
    var lo, hi, w := Min(from, to), Max(from, to), 31 - i;
    ScaleMonotone(lo, from, w);
    ScaleMonotone(from, hi, w);
    ScaleMonotone(lo, to, i);
    ScaleMonotone(to, hi, i);
    assert lo * w + lo * i == lo * 31;
    assert hi * w + hi * i == hi * 31;
  }

  lemma ScaleMonotone(a: int, b: int, c: nat)
    requires a <= b
    ensures a * c <= b * c
  {
  }

  /** Palette entry `i`: a step on the line from background to text colour,
      always opaque. */
  function PaletteEntry(bg: Color, text: Color, i: nat): Color
    requires i < PaletteSize
  {
    RGBA(Blend(bg.r, text.r, i), Blend(bg.g, text.g, i), Blend(bg.b, text.b, i), 255)
  }

  /** `createPalette`: 32 opaque colours, the background's first and the
      text colour's last, every channel in between lying between the two. */
  function CreatePalette(bg: Color, text: Color): (p: seq<Color>)
    ensures |p| == PaletteSize
    ensures forall i :: 0 <= i < |p| ==> p[i].a == 255
    ensures p[0] == Opaque(bg)
    ensures p[PaletteSize - 1] == Opaque(text)
    ensures forall i :: 0 <= i < |p| ==>
      Min(bg.r, text.r) <= p[i].r <= Max(bg.r, text.r) &&
      Min(bg.g, text.g) <= p[i].g <= Max(bg.g, text.g) &&
      Min(bg.b, text.b) <= p[i].b <= Max(bg.b, text.b)
  {
    seq(PaletteSize, i requires 0 <= i < PaletteSize => PaletteEntry(bg, text, i))
  }

  /** What is left at frame `i` when its goroutine reads the clock at
      `now`: `time.Until(cfg.EndTime)` less `i` seconds. */
  function Remaining(cfg: GifConfig, now: Instant, i: nat): Duration {
    cfg.endTime - now - i * Second
  }

  /** The text frame `i` shows when its goroutine reads the clock at `now`. */
  function FrameText(cfg: GifConfig, now: Instant, i: nat): string {
    FormatDuration(Remaining(cfg, now, i))
  }

  /** `Generate`: sixty frames of the configured size, each held for 100
      hundredths, looping forever. Every frame is drawn by its own
      goroutine, which reads the wall clock itself: `clock(i)` is the
      instant goroutine `i` reads, and frame `i` shows the time left then,
      less `i` seconds. */
  method Generate(cfg: GifConfig, clock: nat -> Instant) returns (anim: Animation)
    ensures |anim.frames| == FrameCount && |anim.delays| == FrameCount
    ensures anim.loopCount == 0
    ensures forall i :: 0 <= i < |anim.delays| ==> anim.delays[i] == FrameDelay
    ensures anim.palette == CreatePalette(cfg.background, cfg.textColor)
    ensures forall i :: 0 <= i < |anim.frames| ==>
      anim.frames[i] == Frame(cfg.width, cfg.height, FrameText(cfg, clock(i), i))
  {
    var frames := seq(FrameCount, k requires 0 <= k => Frame(cfg.width, cfg.height, FrameText(cfg, clock(k), k)));
    var delays := seq(FrameCount, _ => FrameDelay);
    anim := Animation(frames, delays, 0, CreatePalette(cfg.background, cfg.textColor));
  }

  // ---------------------------------------------------------------------
  // The frame schedule
  // ---------------------------------------------------------------------

  /** The whole seconds a frame shows, read back from its text. */
  function ShownSeconds(cfg: GifConfig, now: Instant, i: nat): (n: nat)
    ensures Remaining(cfg, now, i) < 0 ==> n == 0
    ensures Remaining(cfg, now, i) >= 0 ==> n == Remaining(cfg, now, i) / Second
  {
    FormatRoundTrip(Remaining(cfg, now, i));
    TotalSeconds(ParseClock(FrameText(cfg, now, i)).value)
  }

  /** Frames `i` and `i + 1`, while the later one still has time left. Read
      at one instant, the later frame shows exactly one second less. Read by
      two goroutines less than a second apart, it shows no more than the
      earlier frame and at most two seconds less: the countdown never runs
      backwards, but may skip a second. */
  lemma FramesTickBySeconds(cfg: GifConfig, now: Instant, next: Instant, i: nat)
    requires Remaining(cfg, next, i + 1) >= 0
    ensures now == next ==> ShownSeconds(cfg, now, i) == ShownSeconds(cfg, next, i + 1) + 1
    ensures -Second < next - now < Second ==>
      ShownSeconds(cfg, next, i + 1) <= ShownSeconds(cfg, now, i) <= ShownSeconds(cfg, next, i + 1) + 2
  {
    var a, b := Remaining(cfg, now, i), Remaining(cfg, next, i + 1);
    assert a == b + Second + (next - now);
    if now == next {
      DivStep(b);
    }
    if -Second < next - now < Second {
      DivWindow(a, b);
    }
  }

  lemma DivStep(b: int)
    requires b >= 0
    ensures (b + Second) / Second == b / Second + 1
  {
  }

  lemma DivWindow(a: int, b: int)
    requires 0 <= b < a < b + 2 * Second
    ensures b / Second <= a / Second <= b / Second + 2
  {
    var q, rb := b / Second, b % Second;
    assert b == q * Second + rb && 0 <= rb < Second;
    assert q * Second < a < (q + 3) * Second;
  }

  /** Two neighbouring goroutines reading the clock one nanosecond apart,
      across a second boundary: frame `i` shows ten seconds and frame
      `i + 1` eight. */
  lemma SkewCanSkipASecond(cfg: GifConfig, t: Instant, i: nat)
    requires cfg.endTime == t + i * Second + 10 * Second
    ensures ShownSeconds(cfg, t, i) == 10
    ensures ShownSeconds(cfg, t + 1, i + 1) == 8
  {
    assert Remaining(cfg, t, i) == 10 * Second;
    assert Remaining(cfg, t + 1, i + 1) == 9 * Second - 1;
  }

  /** Once a frame shows all zeros, so does every later frame whose
      goroutine read the clock no more than the frame gap earlier; in
      particular every later frame when all reads lie within one second,
      and every later frame for a single reading. */
  lemma ZerosAreFinal(cfg: GifConfig, ri: Instant, rj: Instant, i: nat, j: nat)
    requires i <= j
    requires ri - rj <= (j - i) * Second
    requires FrameText(cfg, ri, i) == "00:00:00"
    ensures FrameText(cfg, rj, j) == "00:00:00"
  {
    ZeroDisplayIff(Remaining(cfg, ri, i));
    ZeroDisplayIff(Remaining(cfg, rj, j));
    assert Remaining(cfg, rj, j) == Remaining(cfg, ri, i) + (ri - rj) - (j - i) * Second;
  }

  /** Ninety seconds before the end, the first frame shows 00:01:30 and the
      last one 00:00:31. */
  lemma NinetySecondsExample(cfg: GifConfig, now: Instant)
    requires cfg.endTime == now + 90 * Second
    ensures FrameText(cfg, now, 0) == "00:01:30"
    ensures FrameText(cfg, now, FrameCount - 1) == "00:00:31"
  {
    assert Remaining(cfg, now, 0) == 90 * Second;
    assert Remaining(cfg, now, FrameCount - 1) == 31 * Second;
    NinetySecondsText();
    ThirtyOneSecondsText();
  }

  lemma NinetySecondsText()
    ensures FormatDuration(90 * Second) == "00:01:30"
  {
    assert ClockOf(90 * Second) == ClockFace(0, 1, 30);
    assert Pad2(0) == "00" && Pad2(1) == "01";
    assert Decimal(30) == "30";
  }

  lemma ThirtyOneSecondsText()
    ensures FormatDuration(31 * Second) == "00:00:31"
  {
    assert ClockOf(31 * Second) == ClockFace(0, 0, 31);
    assert Pad2(0) == "00";
    assert Decimal(31) == "31";
  }
}

=== FILE: palettes.dfy ===
/** Request validation of the colour-palette handlers: the hex-colour
    validator, the ordered checks of `CreatePalette` with its cap of twenty
    palettes per user, and the update map of `UpdatePalette`. The store is
    represented only by the palette count it reports (None when the count
    query fails). */
module Palettes {
  import opened Wrappers
  import opened Colors

  /** Palettes one user may own. */
  const MaxPalettes: nat := 20

  // ---------------------------------------------------------------------
  // isValidHexColor: the regular expression ^#[0-9A-Fa-f]{6}$
  // ---------------------------------------------------------------------

  /** The state a matcher cannot leave once a character failed to match. */
  const Dead: nat := 8

  /** One step of the matcher: state `q` in 0..7 counts the characters
      matched so far; 7 is the accepting state and nothing may follow it. */
  function Step(q: nat, ch: char): nat {
    if q == 0 then (if ch == '#' then 1 else Dead)
    else if 1 <= q <= 6 then (if IsHexDigit(ch) then q + 1 else Dead)
    else Dead
  }

  function Run(q: nat, s: string): nat
    decreases |s|
  {
    if |s| == 0 then q else Run(Step(q, s[0]), s[1..])
  }

  /** `isValidHexColor`: the anchored regular expression, run as a matcher. */
  function IsValidHexColor(s: string): bool {
    Run(0, s) == 7
  }

  /** The colours the regular expression describes: '#' and six hex digits. */
  predicate HexColorShape(s: string) {
    |s| == 7 && s[0] == '#' && AllHex(s[1..])
  }

  lemma {:induction false} RunDead(s: string)
    ensures Run(Dead, s) == Dead
    decreases |s|
  {
    if |s| > 0 {
      RunDead(s[1..]);
    }
  }

  /** From state `q` in 1..7 the matcher accepts exactly the strings of
      `7 - q` hex digits. */
  lemma {:induction false} RunDigits(q: nat, s: string)
    requires 1 <= q <= 7
    ensures Run(q, s) == 7 <==> |s| == 7 - q && AllHex(s)
    decreases |s|
  {
    if |s| > 0 {
      if q <= 6 && IsHexDigit(s[0]) {
        RunDigits(q + 1, s[1..]);
        assert AllHex(s) <==> AllHex(s[1..]) by {
          if AllHex(s[1..]) {
            forall i | 0 <= i < |s| ensures IsHexDigit(s[i]) {
              if i > 0 { assert s[i] == s[1..][i - 1]; }
            }
          }
        }
      } else {
        RunDead(s[1..]);
      }
    }
  }

  /** The matcher accepts exactly the strings of the regular expression. */
  lemma ValidHexColorIff(s: string)
    ensures IsValidHexColor(s) <==> HexColorShape(s)
  {
    if |s| > 0 {
      if s[0] == '#' {
        RunDigits(1, s[1..]);
      } else {
        RunDead(s[1..]);
      }
    }
  }

  /** Every colour the validator accepts is one the strict parser reads, as
      the bytes its six digits spell. */
  lemma ValidHexColorParses(s: string)
    requires IsValidHexColor(s)
    ensures HexColorShape(s) && ParseHexStrict(s) == Some(DigitsColor(s[1..]))
  {
    ValidHexColorIff(s);
    StrictSixDigits(s[1..]);
    assert "#" + s[1..] == s;
  }

  /** The validator accepts every colour printed as `#rrggbb`. */
  lemma FormattedColorValid(c: Color)
    ensures IsValidHexColor(FormatHex(c))
  {
    ValidHexColorIff(FormatHex(c));
  }

  /** Strings the strict parser takes but the validator refuses. */
  lemma ValidatorStricterThanParser()
    ensures !IsValidHexColor("FFFFFF") && ParseHexStrict("FFFFFF").Some?
    ensures !IsValidHexColor("#12345G") && ParseHexStrict("#12345G").Some?
  {
    ValidHexColorIff("FFFFFF");
    assert AllHex("FFFFFF");
    StrictSixDigits("FFFFFF");
    ValidHexColorIff("#12345G");
    assert !IsHexDigit("#12345G"[6]);
    assert StripHash("#12345G") == "12345G";
    StrictAcceptsShortBlue();
  }

  // ---------------------------------------------------------------------
  // CreatePalette
  // ---------------------------------------------------------------------

  datatype CreatePaletteRequest = CreatePaletteRequest(name: string, primaryColor: string, secondaryColor: string, accentColor: string)

  datatype PaletteError =
    | NameRequired
    | InvalidColors
    | CountFailed
    | LimitReached
    | NameEmpty
    | InvalidField(column: PaletteColumn)
    | NoFields

  predicate ColorsValid(req: CreatePaletteRequest) {
    IsValidHexColor(req.primaryColor) && IsValidHexColor(req.secondaryColor) && IsValidHexColor(req.accentColor)
  }

  /** `CreatePalette`'s checks in order: name, colours, the count query, the
      cap. On success the palette stored has exactly the requested fields. */
  function ValidateCreate(req: CreatePaletteRequest, count: Option<int>): (r: Result<CreatePaletteRequest, PaletteError>)
    ensures req.name == "" ==> r == Err(NameRequired)
    ensures req.name != "" && !ColorsValid(req) ==> r == Err(InvalidColors)
    ensures req.name != "" && ColorsValid(req) && count.None? ==> r == Err(CountFailed)
    ensures req.name != "" && ColorsValid(req) && count.Some? && count.value >= MaxPalettes ==> r == Err(LimitReached)
    ensures r.Ok? <==> req.name != "" && ColorsValid(req) && count.Some? && count.value < MaxPalettes
    ensures r.Ok? ==> r.value == req
  {
    if req.name == "" then Err(NameRequired)
    else if !ColorsValid(req) then Err(InvalidColors)
    else
      match count
      case None => Err(CountFailed)
      case Some(n) => if n >= MaxPalettes then Err(LimitReached) else Ok(req)
  }

  /** A user's palette count after a series of create requests, each
      inserted when it passes validation against the current count. */
  function CountAfter(count: nat, reqs: seq<CreatePaletteRequest>): nat
    decreases |reqs|
  {
    if |reqs| == 0 then count
    else
      var next := if ValidateCreate(reqs[0], Some(count)).Ok? then count + 1 else count;
      CountAfter(next, reqs[1..])
  }

  /** Sequential creates never take a user past the cap, and a user already
      over it (by other means) gains nothing. */
  lemma {:induction false} CreatesRespectCap(count: nat, reqs: seq<CreatePaletteRequest>)
    ensures count <= CountAfter(count, reqs)
    ensures count <= MaxPalettes ==> CountAfter(count, reqs) <= MaxPalettes
    ensures count >= MaxPalettes ==> CountAfter(count, reqs) == count
    decreases |reqs|
  {
    if |reqs| > 0 {
      var next := if ValidateCreate(reqs[0], Some(count)).Ok? then count + 1 else count;
      CreatesRespectCap(next, reqs[1..]);
    }
  }

  /** The colours of a created palette are ones the preview parser reads. */
  lemma CreatedColorsParse(req: CreatePaletteRequest, count: Option<int>)
    requires ValidateCreate(req, count).Ok?
    ensures ParseHexStrict(req.primaryColor).Some?
    ensures ParseHexStrict(req.secondaryColor).Some?
    ensures ParseHexStrict(req.accentColor).Some?
  {
    ValidHexColorParses(req.primaryColor);
    ValidHexColorParses(req.secondaryColor);
    ValidHexColorParses(req.accentColor);
  }

  // ---------------------------------------------------------------------
  // UpdatePalette
  // ---------------------------------------------------------------------

  /** Each field is None when the JSON body omitted it (a nil pointer). */
  datatype UpdatePaletteRequest = UpdatePaletteRequest(
    name: Option<string>,
    primaryColor: Option<string>,
    secondaryColor: Option<string>,
    accentColor: Option<string>)

  /** The columns an update may set; `ColumnName` is the key Go uses. */
  datatype PaletteColumn = NameColumn | PrimaryColumn | SecondaryColumn | AccentColumn

  function ColumnName(c: PaletteColumn): string {
    match c
    case NameColumn => "name"
    case PrimaryColumn => "primary_color"
    case SecondaryColumn => "secondary_color"
    case AccentColumn => "accent_color"
  }

  /** Distinct columns have distinct keys, so a map keyed by column is a
      faithful stand-in for Go's map keyed by column name. */
  lemma ColumnNamesDistinct(a: PaletteColumn, b: PaletteColumn)
    ensures ColumnName(a) == ColumnName(b) ==> a == b
  {
    if ColumnName(a) == ColumnName(b) {
      assert ColumnName(a)[0] == ColumnName(b)[0];
      assert |ColumnName(a)| == |ColumnName(b)|;
    }
  }

  /** The columns whose fields the request provides. */
  function ProvidedColumns(req: UpdatePaletteRequest): set<PaletteColumn> {
    (if req.name.Some? then {NameColumn} else {}) +
    (if req.primaryColor.Some? then {PrimaryColumn} else {}) +
    (if req.secondaryColor.Some? then {SecondaryColumn} else {}) +
    (if req.accentColor.Some? then {AccentColumn} else {})
  }

  /** Adds an optional colour under `column` after validating it. */
  function AddColor(updates: map<PaletteColumn, string>, column: PaletteColumn, value: Option<string>): (r: Result<map<PaletteColumn, string>, PaletteError>)
    ensures value.None? ==> r == Ok(updates)
    ensures value.Some? && IsValidHexColor(value.value) ==> r == Ok(updates[column := value.value])
    ensures value.Some? && !IsValidHexColor(value.value) ==> r == Err(InvalidField(column))
  {
    match value
    case None => Ok(updates)
    case Some(c) => if IsValidHexColor(c) then Ok(updates[column := c]) else Err(InvalidField(column))
  }

  /** A colour field that is omitted or holds a valid colour. */
  predicate AbsentOrValid(value: Option<string>) {
    value.Some? ==> IsValidHexColor(value.value)
  }

  /** `UpdatePalette`'s update map: name, then the three colours, each
      checked as it is added; an empty map is refused. */
  function BuildPaletteUpdates(req: UpdatePaletteRequest): (r: Result<map<PaletteColumn, string>, PaletteError>)
    ensures req.name == Some("") ==> r == Err(NameEmpty)
    ensures r.Ok? ==> r.value.Keys == ProvidedColumns(req) && r.value.Keys != {}
    ensures r.Ok? ==> forall k :: k in r.value && k != NameColumn ==> IsValidHexColor(r.value[k])
    ensures r.Ok? && NameColumn in r.value ==> r.value[NameColumn] != ""
    ensures ProvidedColumns(req) == {} ==> r == Err(NoFields)
    ensures req.name != Some("") && !AbsentOrValid(req.primaryColor) ==> r == Err(InvalidField(PrimaryColumn))
    ensures req.name != Some("") && AbsentOrValid(req.primaryColor) && !AbsentOrValid(req.secondaryColor) ==>
      r == Err(InvalidField(SecondaryColumn))
    ensures (req.name != Some("") && AbsentOrValid(req.primaryColor) && AbsentOrValid(req.secondaryColor) &&
             !AbsentOrValid(req.accentColor)) ==> r == Err(InvalidField(AccentColumn))
  {
    if req.name == Some("") then Err(NameEmpty)
    else
      var named: map<PaletteColumn, string> := if req.name.Some? then map[NameColumn := req.name.value] else map[];
      var withPrimary :- AddColor(named, PrimaryColumn, req.primaryColor);
      var withSecondary :- AddColor(withPrimary, SecondaryColumn, req.secondaryColor);
      var updates :- AddColor(withSecondary, AccentColumn, req.accentColor);
      if updates.Keys == {} then Err(NoFields) else Ok(updates)
  }

  function Lookup(m: map<PaletteColumn, string>, column: PaletteColumn): Option<string> {
    if column in m then Some(m[column]) else None
  }

  /** Reads an update map back as the request that produced it. */
  function DecodePaletteUpdates(m: map<PaletteColumn, string>): UpdatePaletteRequest {
    UpdatePaletteRequest(Lookup(m, NameColumn), Lookup(m, PrimaryColumn), Lookup(m, SecondaryColumn), Lookup(m, AccentColumn))
  }

  /** The update map loses nothing: it holds exactly the provided values. */
  lemma PaletteUpdatesRoundTrip(req: UpdatePaletteRequest)
    requires BuildPaletteUpdates(req).Ok?
    ensures DecodePaletteUpdates(BuildPaletteUpdates(req).value) == req
  {
  }

  /** An update is accepted exactly when it provides some field, a provided
      name is not empty, and every provided colour is valid. */
  lemma PaletteUpdateAcceptedIff(req: UpdatePaletteRequest)
    ensures BuildPaletteUpdates(req).Ok? <==>
      ProvidedColumns(req) != {} &&
      req.name != Some("") &&
      (req.primaryColor.Some? ==> IsValidHexColor(req.primaryColor.value)) &&
      (req.secondaryColor.Some? ==> IsValidHexColor(req.secondaryColor.value)) &&
      (req.accentColor.Some? ==> IsValidHexColor(req.accentColor.value))
  {
  }

  /** The first invalid colour in source order is the one reported: an
      invalid primary whatever follows, an invalid secondary after a valid
      or omitted primary, an invalid accent after both. */
  lemma FirstInvalidColorReported(req: UpdatePaletteRequest)
    requires req.name != Some("")
    ensures !AbsentOrValid(req.primaryColor) ==> BuildPaletteUpdates(req) == Err(InvalidField(PrimaryColumn))
    ensures AbsentOrValid(req.primaryColor) && !AbsentOrValid(req.secondaryColor) ==>
      BuildPaletteUpdates(req) == Err(InvalidField(SecondaryColumn))
    ensures AbsentOrValid(req.primaryColor) && AbsentOrValid(req.secondaryColor) && !AbsentOrValid(req.accentColor) ==>
      BuildPaletteUpdates(req) == Err(InvalidField(AccentColumn))
  {
  }

}

=== FILE: preview.dfy ===
/** The config resolution of the `PreviewGIF` handler, lifted out as a pure
    function of the decoded request, the clock reading `now` and the RFC 3339
    parser `parseTime`. Go's JSON zero values stand for omitted fields. */
module Preview {
  import opened Wrappers
  import opened Colors
  import opened Clock
  import opened Render

  datatype PreviewRequest = PreviewRequest(
    timerType: string,
    endTime: string,
    duration: int,
    showDays: bool,
    showHours: bool,
    showMinutes: bool,
    showSeconds: bool,
    numberFont: string,
    numberFontSize: int,
    numberColor: string,
    showLabels: bool,
    labelFont: string,
    labelFontSize: int,
    labelColor: string,
    showSeparators: bool,
    separatorColor: string,
    bgColor: string,
    transparent: bool,
    matteColor: string,
    roundedCorners: bool,
    cornerRadius: int,
    expireBehavior: string,
    expireText: string,
    expireTextFont: string,
    expireTextFontSize: int,
    expireTextColor: string,
    expired: bool)

  /** The request with every field omitted. */
  const EmptyRequest: PreviewRequest := PreviewRequest(
    "", "", 0, false, false, false, false, "", 0, "", false, "", 0, "", false, "",
    "", false, "", false, 0, "", "", "", 0, "", false)

  datatype PreviewError = InvalidEndTime

  /** A fixed timer with an end time uses that time, or fails if it does not
      parse; otherwise a positive duration counts from now; otherwise the
      countdown ends a day from now. */
  function PreviewEndTime(req: PreviewRequest, now: Instant, parseTime: string -> Option<Instant>): (r: Result<Instant, PreviewError>)
    ensures r.Err? <==> req.timerType == "fixed" && req.endTime != "" && parseTime(req.endTime).None?
    ensures req.timerType == "fixed" && req.endTime != "" && parseTime(req.endTime).Some? ==>
      r == Ok(parseTime(req.endTime).value)
    ensures !(req.timerType == "fixed" && req.endTime != "") ==> r.Ok? && r.value > now
    ensures !(req.timerType == "fixed" && req.endTime != "") && req.duration > 0 ==>
      r == Ok(now + req.duration * Second)
    ensures !(req.timerType == "fixed" && req.endTime != "") && req.duration <= 0 ==>
      r == Ok(now + DefaultSpan)
  {
    if req.timerType == "fixed" && req.endTime != "" then
      match parseTime(req.endTime)
      case None => Err(InvalidEndTime)
      case Some(t) => Ok(t)
    else if req.duration > 0 then Ok(now + req.duration * Second)
    else Ok(now + DefaultSpan)
  }

  /** A font size from an int field: non-positive means the default. */
  function SizeOrDefault(size: int, default: real): (r: real)
    requires default > 0.0
    ensures r > 0.0
    ensures size > 0 ==> r == size as real
    ensures size <= 0 ==> r == default
  {
    if size as real <= 0.0 then default else size as real
  }

  /** The background: the bg colour (white by default), replaced by the
      matte colour only for a transparent preview with a matte given; an
      unparseable matte keeps the bg colour. */
  function PreviewBackground(req: PreviewRequest): (c: Color)
    ensures !(req.transparent && req.matteColor != "") ==> c == ParseColorOrDefault(req.bgColor, White)
    ensures req.transparent && ParseHexStrict(req.matteColor).Some? ==> c == ParseHexStrict(req.matteColor).value
    ensures ParseHexStrict(req.matteColor).None? ==> c == ParseColorOrDefault(req.bgColor, White)
  {
    var bg := ParseColorOrDefault(req.bgColor, White);
    if req.transparent && req.matteColor != "" then ParseColorOrDefault(req.matteColor, bg) else bg
  }

  /** The config `PreviewGIF` hands to the generator, before auto-sizing. */
  function ResolvePreview(req: PreviewRequest, now: Instant, parseTime: string -> Option<Instant>): (r: Result<RenderConfig, PreviewError>)
    ensures r.Err? <==> PreviewEndTime(req, now, parseTime).Err?
    ensures r.Ok? ==> r.value.endTime == PreviewEndTime(req, now, parseTime).value
    ensures r.Ok? ==> r.value.style.numberFontSize > 0.0 && r.value.style.labelFontSize > 0.0
    ensures r.Ok? && req.numberFontSize > 0 ==> r.value.style.numberFontSize == req.numberFontSize as real
    ensures r.Ok? && req.labelFontSize > 0 ==> r.value.style.labelFontSize == req.labelFontSize as real
    ensures r.Ok? ==> r.value.style.background == PreviewBackground(req)
    ensures r.Ok? ==> r.value.style.textColor == ParseColorOrDefault(req.numberColor, Black)
    ensures r.Ok? && req.numberFontSize <= 0 ==> r.value.style.numberFontSize == DefaultNumberFontSize
    ensures r.Ok? && req.labelFontSize <= 0 ==> r.value.style.labelFontSize == DefaultLabelFontSize
    ensures r.Ok? && ParseHexStrict(req.labelColor).None? ==> r.value.style.labelColor == r.value.style.textColor
    ensures r.Ok? && ParseHexStrict(req.labelColor).Some? ==> r.value.style.labelColor == ParseHexStrict(req.labelColor).value
    ensures r.Ok? && ParseHexStrict(req.separatorColor).None? ==> r.value.style.separatorColor == r.value.style.textColor
    ensures r.Ok? && ParseHexStrict(req.separatorColor).Some? ==>
      r.value.style.separatorColor == ParseHexStrict(req.separatorColor).value
    ensures r.Ok? ==> r.value.expiry.color.Some?
    ensures r.Ok? && ParseHexStrict(req.expireTextColor).None? ==> r.value.expiry.color == Some(r.value.style.textColor)
    ensures r.Ok? && ParseHexStrict(req.expireTextColor).Some? ==>
      r.value.expiry.color == Some(ParseHexStrict(req.expireTextColor).value)
    ensures r.Ok? ==> r.value.style.numberFontName == req.numberFont && r.value.style.labelFontName == req.labelFont
    ensures r.Ok? ==>
      && r.value.style.showLabels == req.showLabels && r.value.style.showSeparators == req.showSeparators
      && r.value.style.showDays == req.showDays && r.value.style.showHours == req.showHours
      && r.value.style.showMinutes == req.showMinutes && r.value.style.showSeconds == req.showSeconds
    ensures r.Ok? ==>
      && r.value.style.transparent == req.transparent && r.value.style.roundedCorners == req.roundedCorners
      && r.value.style.cornerRadius == req.cornerRadius
    ensures r.Ok? ==>
      && r.value.expiry.expired == req.expired && r.value.expiry.behavior == req.expireBehavior
      && r.value.expiry.text == req.expireText && r.value.expiry.font == req.expireTextFont
      && r.value.expiry.size == req.expireTextFontSize as real
  {
    var endTime :- PreviewEndTime(req, now, parseTime);
    var numberColor := ParseColorOrDefault(req.numberColor, Black);
    var style := Style(
      PreviewBackground(req),
      numberColor,
      req.numberFont,
      SizeOrDefault(req.numberFontSize, DefaultNumberFontSize),
      req.showLabels,
      req.labelFont,
      SizeOrDefault(req.labelFontSize, DefaultLabelFontSize),
      ParseColorOrDefault(req.labelColor, numberColor),
      req.showSeparators,
      ParseColorOrDefault(req.separatorColor, numberColor),
      req.showDays,
      req.showHours,
      req.showMinutes,
      req.showSeconds,
      req.transparent,
      req.roundedCorners,
      req.cornerRadius);
    var expiry := Expiry(
      req.expired,
      req.expireBehavior,
      req.expireText,
      req.expireTextFont,
      req.expireTextFontSize as real,
      Some(ParseColorOrDefault(req.expireTextColor, numberColor)));
    Ok(RenderConfig(endTime, style, expiry))
  }

  /** A request with every field omitted previews a day-long countdown in
      black on white at sizes 60 and 14, with nothing shown but the digits. */
  lemma EmptyRequestDefaults(now: Instant, parseTime: string -> Option<Instant>)
    ensures ResolvePreview(EmptyRequest, now, parseTime) == Ok(RenderConfig(
      now + DefaultSpan,
      Style(White, Black, "", 60.0, false, "", 14.0, Black, false, Black,
            false, false, false, false, false, false, 0),
      Expiry(false, "", "", "", 0.0, Some(Black))))
  {
  }

  /** The label, separator and expiry-text colours follow whatever number
      colour was resolved when their own colour is missing or malformed. */
  lemma FallbacksFollowNumberColor(req: PreviewRequest, now: Instant, parseTime: string -> Option<Instant>, c: Color)
    requires ResolvePreview(req, now, parseTime).Ok?
    requires req.labelColor == "" && req.separatorColor == "" && req.expireTextColor == ""
    ensures
      var r := ResolvePreview(req.(numberColor := FormatHex(c)), now, parseTime).value;
      r.style.labelColor == Opaque(c) && r.style.separatorColor == Opaque(c) && r.expiry.color == Some(Opaque(c))
  {
    ColorOrDefaultFormatted(c, Black);
  }

  /** The matte colour matters only for a transparent preview. */
  lemma MatteNeedsTransparency(req: PreviewRequest, matte: string, now: Instant, parseTime: string -> Option<Instant>)
    requires !req.transparent
    ensures ResolvePreview(req.(matteColor := matte), now, parseTime) == ResolvePreview(req, now, parseTime)
  {
    var req' := req.(matteColor := matte);
    assert PreviewBackground(req') == PreviewBackground(req);
    assert PreviewEndTime(req', now, parseTime) == PreviewEndTime(req, now, parseTime);
  }
}

=== FILE: render.dfy ===
/** The render configuration the private handlers build: the styling and
    expiry fields of the extended `gif.Config` they set, plus the end time.
    Font sizes are Go float64 values and are modelled as reals; the only
    thing the handlers do with them is compare them with zero. */
module Render {
  import opened Wrappers
  import opened Colors
  import opened Clock

  /** Styling fields of the extended config. */
  datatype Style = Style(
    background: Color,
    textColor: Color,
    numberFontName: string,
    numberFontSize: real,
    showLabels: bool,
    labelFontName: string,
    labelFontSize: real,
    labelColor: Color,
    showSeparators: bool,
    separatorColor: Color,
    showDays: bool,
    showHours: bool,
    showMinutes: bool,
    showSeconds: bool,
    transparent: bool,
    roundedCorners: bool,
    cornerRadius: int)

  /** Expiry fields of the extended config; an unset (nil) colour is None. */
  datatype Expiry = Expiry(expired: bool, behavior: string, text: string, font: string, size: real, color: Option<Color>)

  /** The Go zero value of the expiry fields. */
  const NoExpiry: Expiry := Expiry(false, "", "", "", 0.0, None)

  datatype RenderConfig = RenderConfig(endTime: Instant, style: Style, expiry: Expiry)

  /** Number and label font sizes used when none (or a non-positive one) is given. */
  const DefaultNumberFontSize: real := 60.0
  const DefaultLabelFontSize: real := 14.0

  /** Span of a countdown given neither an end time nor a duration. */
  const DefaultSpan: int := 24 * Hour
}

=== FILE: wrappers.dfy ===
/** Failure-carrying datatypes shared by every module of the model.
    - Option<T> stands for a Go value that may be nil, or a `(value, ok)` pair.
    - Result<T, E> stands for a Go `(value, error)` pair whose error is one of the handler's rejections.
 */
module Wrappers {

  datatype Option<+T> = None | Some(value: T) {

    predicate IsFailure() {
      None?
    }

    function PropagateFailure<U>(): Option<U>
      requires None?
    {
      None
    }

    function Extract(): T
      requires Some?
    {
      value
    }
  }

  datatype Result<+T, +E> = Ok(value: T) | Err(error: E) {

    predicate IsFailure() {
      Err?
    }

    function PropagateFailure<U>(): Result<U, E>
      requires Err?
    {
      Err(error)
    }

    function Extract(): T
      requires Ok?
    {
      value
    }
  }
}
